=== FILE: README.md ===
# Railway traffic-control dashboard: rules and state

This project models the deterministic rules of a railway traffic-control dashboard
for the Howrah–Kharagpur line. It covers:

- the three-aspect signalling rule engine and the placement of home, distant and
  intermediate signals along the line;
- one tick of train movement along the 0–100 km line;
- the global store whose actions update, prepend, remove and cap lists;
- the per-type train updates applied when a recommendation is accepted;
- the scoring of a simulated recommendation;
- the statistics the dashboard panels show (counts, averages, percentages);
- the alert panel's filter and counters;
- the label, colour and icon helpers;
- the demo fixtures: the eight demo trains with their statistics, the demo
  recommendations, and the stations, sections and trains of the line.

Kilometre posts and speeds on the line are exact reals. Delays, speeds and counts in
the store are whole numbers. JavaScript's `Math.round(x)` is `Floor(x + 1/2)`.

Modules, one per source file or concern:

- `Types`: records of types/index.ts, `Round` and `Percent`.
- `Seqs`: `filter`, `filter().length`, `map` on matching items, `slice(0, n)`.
- `Text`: decimal printing of whole numbers.
- `Signaling`: components/RailwaySignaling.tsx; the view's state is the class `SignalBoard`.
- `Store`: store/useTrainStore.ts, as the class `TrainStore`, with the list
  computations as functions.
- `Recommendations`: components/AIRecommendations.tsx.
- `Simulation`: components/SimulationModal.tsx.
- `DemoData`: lib/demoData.ts.
- `Dashboard`: components/StatusDashboard.tsx.
- `Overview`: components/NetworkOverview.tsx and components/NetworkStatusDropdown.tsx.
  Their `updateStats` is the same code in both files.
- `AlertsView`: components/AlertsPanel.tsx.
- `Utils`: lib/utils.ts.

## Model

| member | source | states |
|---|---|---|
| Types.Round | components/SimulationModal.tsx:361-364 | `Math.round` lands within one half of its argument, with halves rounded up |
| Types.RoundedMean | components/NetworkOverview.tsx:36-38 | `Math.round(sum / n)` for n > 0 is the integer m with (m − ½)·n ≤ sum < (m + ½)·n, stated without dividing; it is non-negative for a non-negative sum |
| Types.Percent | components/NetworkOverview.tsx:77-78 | `Math.round(part / total * 100)` is in [0, 100] when 0 ≤ part ≤ total and total > 0. It is 0 for part 0 and 100 for part = total. There is no finite value exactly when total is 0. For total > 0 it is the rounded mean of 100·part over total, Round(100·part/total) |
| Types.RatioBounds | components/NetworkOverview.tsx:77-78 | a part between 0 and a positive total gives a ratio in [0, 1], exactly 0 for part 0 and 1 for the whole |
| Seqs.Filter | store/useTrainStore.ts:100-102 | `filter` keeps exactly the elements that satisfy the predicate, and never grows the list |
| Seqs.FilterAppend | store/useTrainStore.ts:100-102 | filtering distributes over concatenation, so the kept elements keep their original order |
| Seqs.FilterAll | store/useTrainStore.ts:100-102 | a predicate true everywhere keeps the whole list |
| Seqs.FilterNone | store/useTrainStore.ts:100-102 | a predicate true nowhere keeps nothing |
| Seqs.CountCons | components/StatusDashboard.tsx:59-61 | a count is the first element's contribution plus the count of the rest |
| Seqs.CountComplement | components/AlertsPanel.tsx:24 | complementary predicates' counts add up to the length |
| Seqs.CountExclusive3 | components/NetworkOverview.tsx:29-32 | three pairwise exclusive predicates' counts add up to at most the length |
| Seqs.CountPartition3 | components/StatusDashboard.tsx:59-61 | when every element satisfies exactly one of three predicates, their counts add up to the length |
| Seqs.CountFull | components/NetworkStatusDropdown.tsx:79-80 | the count equals the length exactly when every element satisfies the predicate |
| Seqs.CountZero | components/NetworkOverview.tsx:35-38 | the count is 0 exactly when no element satisfies the predicate |
| Seqs.MapWhere | store/useTrainStore.ts:80-84 | the conditional `map` keeps the length and position of every element, and changes only the selected ones |
| Seqs.Take | store/useTrainStore.ts:106-108 | `slice(0, n)` is the prefix of length min(length, n) |
| Text.DigitChar | lib/utils.ts:10 | a decimal digit character with the given value |
| Text.NatToString | lib/utils.ts:10 | a whole number prints as a non-empty string of decimal digits |
| Text.ParseNatToString | lib/utils.ts:10 | reading the printed digits back gives the number |
| Text.IntToString | lib/utils.ts:11 | the printed form starts with '-' exactly for negative numbers |
| Text.IntToStringInjective | lib/utils.ts:10-11 | distinct whole numbers print differently |
| Signaling.FirstContaining | components/RailwaySignaling.tsx:131 | `sections.find` returns the first section, in list order, whose bounds (both inclusive) contain the position. It returns nothing exactly when no section contains it |
| Signaling.SignalState | components/RailwaySignaling.tsx:122-136 | the aspect is red exactly when a train within 2 km (strict) is moving, or the first containing section is occupied. It is yellow exactly when no such train exists and that section is in caution. Otherwise it is green |
| Signaling.DistantSignalState | components/RailwaySignaling.tsx:138-143 | a distant aspect is never red. It is yellow exactly when the home aspect at the station is not green |
| Signaling.ProximityForcesRed | components/RailwaySignaling.tsx:124-128 | any moving train closer than 2 km forces red, whatever the sections say |
| Signaling.IgnoredTrainChangesNothing | components/RailwaySignaling.tsx:125 | a stopped train, or one 2 km or more away, does not change the aspect |
| Signaling.SectionDecides | components/RailwaySignaling.tsx:131-135 | with no moving train nearby, the first containing section decides: occupied gives red, caution gives yellow, clear or blocked gives green |
| Signaling.NoSectionGreen | components/RailwaySignaling.tsx:135 | with no moving train nearby and no containing section, the aspect is green |
| Signaling.DistantLowersByOneStep | components/RailwaySignaling.tsx:138-143 | the distant aspect is at most one step less restrictive than the home aspect, and never more restrictive |
| Signaling.EvaluateAll | components/RailwaySignaling.tsx:145-154 | `updateSignals` keeps the length, order, ids, positions and kinds, and changes only the aspects. A home signal gets the aspect computed at its own position. A distant signal gets the distant aspect of the home signal at its position + 1, and is never red |
| Signaling.EvaluateAllIdempotent | components/RailwaySignaling.tsx:145-154 | re-evaluating twice against the same trains and sections equals re-evaluating once |
| Signaling.IntermediateSignalsStep | components/RailwaySignaling.tsx:100-109 | one more loop iteration appends at most the signal for that km |
| Signaling.GenerateSignals | components/RailwaySignaling.tsx:78-109 | the placement loop builds the station signals followed by the intermediate signals |
| Signaling.PlaceStationSignals | components/RailwaySignaling.tsx:79-97 | the `forEach` pushes, station by station, a home signal and, for a major station, a distant signal |
| Signaling.PlaceIntermediateSignals | components/RailwaySignaling.tsx:100-109 | the `for` loop pushes `INT-km` for km = 10, 20, …, 90 wherever no station lies within 2 km |
| Signaling.PlacedThrough | components/RailwaySignaling.tsx:100-109 | pushing the slot for one more km after the signals placed so far gives the signals the loop places up to the next km |
| Signaling.SettledIsFixedPoint | components/RailwaySignaling.tsx:145-154 | signals that already show their computed aspect are unchanged by `updateSignals` |
| Signaling.StationsSignalsSettled | components/RailwaySignaling.tsx:81-154 | station signals are built with the aspect `updateSignals` computes. For a distant signal at km − 1, reading at position + 1 gives back the station km |
| Signaling.IntermediateSignalsSettled | components/RailwaySignaling.tsx:102-154 | intermediate signals are built with the aspect `updateSignals` computes |
| Signaling.UpdateAgreesWithPlacement | components/RailwaySignaling.tsx:78-154 | re-evaluating the placed signals against the same line data changes nothing |
| Signaling.HomeSignalAtEachStation | components/RailwaySignaling.tsx:81-86 | every station gets a home signal at its km showing the home aspect there |
| Signaling.DistantSignalRule | components/RailwaySignaling.tsx:89-96 | a station with more than 2 platforms beyond km 1 gets a distant signal at km − 1 showing the distant aspect (the converse is StationSignalsSound) |
| Signaling.StationSignalsSound | components/RailwaySignaling.tsx:79-97 | every station signal is a home signal at a station km, or a distant signal 1 km before a station with more than 2 platforms beyond km 1 |
| Signaling.HasIntermediateAtAppend | components/RailwaySignaling.tsx:102 | an intermediate signal is at a km in a concatenation exactly when it is in one of the parts |
| Signaling.IntermediateSignalRule | components/RailwaySignaling.tsx:100-109 | among the intermediate signals placed below a bound, a positive km a whole number of 10-km steps below it carries one exactly when no station lies within 2 km of it |
| Signaling.EarlierSlotKept | components/RailwaySignaling.tsx:100-109 | a further iteration does not add or remove an intermediate signal at a km it has already passed |
| Signaling.LastSlotRule | components/RailwaySignaling.tsx:100-109 | after the iteration for a km, that km carries an intermediate signal exactly when no station is within 2 km |
| Signaling.IntermediateSignalAtRule | components/RailwaySignaling.tsx:101-108 | one iteration places a signal at a km exactly when it is its own km and no station is within 2 km |
| Signaling.IntermediatePositions | components/RailwaySignaling.tsx:100-109 | every signal the loop places is an intermediate signal at a position above 0 and below the loop bound |
| Signaling.IntermediatePlacementRule | components/RailwaySignaling.tsx:78-109 | in the full placement, an intermediate signal stands at 10k (k = 1..9) exactly when no station lies within 2 km |
| Signaling.StationsSignalsNotIntermediate | components/RailwaySignaling.tsx:79-97 | the station loop places no intermediate signal |
| Signaling.StepTrain | components/RailwaySignaling.tsx:164-176 | an emergency or stopped train is returned unchanged. Any train changes at most its position |
| Signaling.StepMovesBySpeed | components/RailwaySignaling.tsx:168-171 | a moving train goes to min(100, km + speed·5/3600) when 'down' and to max(0, km − speed·5/3600) when 'up' |
| Signaling.StepStaysOnLine | components/RailwaySignaling.tsx:169-171 | a train on [0, 100] with non-negative speed stays on [0, 100] |
| Signaling.StepAll | components/RailwaySignaling.tsx:164-177 | every train is stepped, in place and in order |
| Signaling.StepAllKeepsLine | components/RailwaySignaling.tsx:162-178 | after a tick every train keeps all fields but its position, and trains on the line stay on it |
| Signaling.SignalBoard.constructor | components/RailwaySignaling.tsx:49-55 | the view starts with no line data and no signals |
| Signaling.SignalBoard.Initialize | components/RailwaySignaling.tsx:75-111 | mounting stores the line data and the placed signals, which `updateSignals` would leave unchanged |
| Signaling.SignalBoard.UpdateSignals | components/RailwaySignaling.tsx:145-154 | the signals become their re-evaluation; the line data is untouched |
| Signaling.SignalBoard.UpdateTrainPositions | components/RailwaySignaling.tsx:156-180 | without captured or current line data nothing changes. Otherwise exactly the trains are stepped; the signals are untouched |
| Store.UpdatedTrains | store/useTrainStore.ts:80-84 | `updateTrain` keeps length and order. Trains with the id get the update's fields overlaid; all other trains are unchanged |
| Store.UpdatedTrainsIdempotent | store/useTrainStore.ts:80-84 | applying the same update twice equals applying it once |
| Store.UpdatedTrainsAbsentId | store/useTrainStore.ts:80-84 | an update for an id no train carries changes nothing |
| Store.UpdatedRecommendations | store/useTrainStore.ts:94-98 | `updateRecommendation` overlays only the recommendations with the id |
| Store.UpdatedRecommendationsIdempotent | store/useTrainStore.ts:94-98 | applying the same recommendation update twice equals applying it once |
| Store.WithoutRecommendation | store/useTrainStore.ts:100-102 | `removeRecommendation` leaves no recommendation with the id, keeps every other one, and never grows the list |
| Store.WithoutRecommendationAppend | store/useTrainStore.ts:100-102 | removal keeps the survivors in their original order |
| Store.WithoutRecommendationAbsent | store/useTrainStore.ts:100-102 | removing an absent id changes nothing |
| Store.RemoveUndoesAdd | store/useTrainStore.ts:90-102 | removing the id of a just-added recommendation undoes the addition, up to older entries with that id |
| Store.WithAlert | store/useTrainStore.ts:106-108 | `addAlert` puts the new alert first. The length becomes min(old + 1, 50) and the tail is a prefix of the old list |
| Store.AcknowledgedAlerts | store/useTrainStore.ts:110-114 | `acknowledgeAlert` sets `acknowledged` only on alerts with the id, and keeps the length |
| Store.AcknowledgedAlertsIdempotent | store/useTrainStore.ts:110-114 | acknowledging twice equals acknowledging once |
| Store.AcknowledgeLowersUnacknowledged | store/useTrainStore.ts:110-114 | the unacknowledged count drops by exactly the number of unacknowledged alerts with the id |
| Store.UpdatedAgents | store/useTrainStore.ts:120-124 | `updateAgent` overlays only the agents with the id |
| Store.UpdatedAgentsIdempotent | store/useTrainStore.ts:120-124 | applying the same agent update twice equals applying it once |
| Store.WithSimulationResult | store/useTrainStore.ts:126-128 | `addSimulationResult` puts the new result first. The length becomes min(old + 1, 10) and the tail is a prefix of the old list |
| Store.InitialState | store/useTrainStore.ts:49-75 | the initial state has empty lists, so it is within both caps |
| Store.TrainStore.constructor | store/useTrainStore.ts:49-75 | the store starts in the initial state |
| Store.TrainStore.SetTrains | store/useTrainStore.ts:78 | only the trains change |
| Store.TrainStore.UpdateTrain | store/useTrainStore.ts:80-84 | only the trains change, as `UpdatedTrains` says |
| Store.TrainStore.SetStations | store/useTrainStore.ts:86 | only the stations change |
| Store.TrainStore.SetTracks | store/useTrainStore.ts:88 | only the tracks change |
| Store.TrainStore.AddRecommendation | store/useTrainStore.ts:90-92 | only the recommendations change: the new one first, then the old list |
| Store.TrainStore.UpdateRecommendation | store/useTrainStore.ts:94-98 | only the recommendations change, as `UpdatedRecommendations` says |
| Store.TrainStore.RemoveRecommendation | store/useTrainStore.ts:100-102 | only the recommendations change, as `WithoutRecommendation` says |
| Store.TrainStore.SetNetworkStats | store/useTrainStore.ts:104 | only the statistics change |
| Store.TrainStore.AddAlert | store/useTrainStore.ts:106-108 | only the alerts change, as `WithAlert` says, and the caps still hold |
| Store.TrainStore.AcknowledgeAlert | store/useTrainStore.ts:110-114 | only the alerts change, as `AcknowledgedAlerts` says, and the caps still hold |
| Store.TrainStore.ClearAllAlerts | store/useTrainStore.ts:116 | only the alerts change: they become empty |
| Store.TrainStore.SetAgents | store/useTrainStore.ts:118 | only the agents change |
| Store.TrainStore.UpdateAgent | store/useTrainStore.ts:120-124 | only the agents change, as `UpdatedAgents` says |
| Store.TrainStore.AddSimulationResult | store/useTrainStore.ts:126-128 | only the results change, as `WithSimulationResult` says, and the caps still hold |
| Store.TrainStore.SelectTrain | store/useTrainStore.ts:131 | only the selected train changes |
| Store.TrainStore.SelectRecommendation | store/useTrainStore.ts:133 | only the selected recommendation changes |
| Store.TrainStore.SetSimulationModalOpen | store/useTrainStore.ts:135 | only the modal flag changes |
| Store.TrainStore.SetMapView | store/useTrainStore.ts:137 | only the map centre and zoom change |
| Store.TrainStore.SetConnectionStatus | store/useTrainStore.ts:139 | only the connection flag changes |
| Recommendations.Find | components/AIRecommendations.tsx:49 | `trains.find` gives a train from the list carrying the id. It gives nothing exactly when no train carries it |
| Recommendations.FirstWithId | components/AIRecommendations.tsx:49 | the index of the first train with the id, or the length when there is none |
| Recommendations.FindIsFirst | components/AIRecommendations.tsx:49 | `find` returns the train at that first index |
| Recommendations.Changed | components/AIRecommendations.tsx:47-107 | only status, delay and speed change. Reroute: delayed, delay = max(0, delay + 5), speed kept. Delay: delayed, delay + 10, speed = max(20, speed − 15). Priority: on time, delay = max(0, delay − 5), speed = min(120, speed + 10). Maintenance and emergency: that status and speed 0 |
| Recommendations.AffectedIds | components/AIRecommendations.tsx:44 | a missing list of affected trains acts as the empty list |
| Recommendations.ApplyId | components/AIRecommendations.tsx:48-57 | one pass of the callback: when the component's list has a train with the id, every store train with that id gets the per-type update computed from the listed train; all other trains, and every train when the id is not found, stay as they are |
| Recommendations.ApplyIds | components/AIRecommendations.tsx:44-108 | handling the ids one by one keeps the number of trains |
| Recommendations.Reference | components/AIRecommendations.tsx:44-108 | the reference effect, train by train, keeps the number of trains |
| Recommendations.ReferenceTrainStep | components/AIRecommendations.tsx:49-54 | handling one more id moves each train from its reference value before that id to its reference value after it |
| Recommendations.OverlayPatchForTwice | components/AIRecommendations.tsx:52-56 | a per-type update keeps the train's id, and applying it twice equals applying it once |
| Recommendations.ApplyIdsIsReference | components/AIRecommendations.tsx:44-108 | the loop equals the train-by-train reference. A train is updated once, from the snapshot's train with its id, exactly when that id is listed and found |
| Recommendations.ListedTrainChanged | components/AIRecommendations.tsx:47-107 | when the component's list is the store's, a listed train ends up exactly as `Changed` describes |
| Recommendations.UnlistedTrainUnchanged | components/AIRecommendations.tsx:44-50 | trains that are not listed are unchanged |
| Recommendations.UnknownIdSkipped | components/AIRecommendations.tsx:49-50 | an id not found in the trains is skipped |
| Recommendations.RepeatedIdDoesNotCompound | components/AIRecommendations.tsx:19-54 | values come from the list read before any update, so listing an id twice equals listing it once |
| Recommendations.ApplyToTrain | components/AIRecommendations.tsx:48-57 | the `forEach` callback changes the store's trains as one pass of `ApplyId` and nothing else in the store |
| Recommendations.ApplyRecommendationChanges | components/AIRecommendations.tsx:42-110 | the store's trains become the result of handling every listed id. Nothing else in the store changes |
| Simulation.ScopeMultiplier | components/SimulationModal.tsx:358 | network gives 1.5, regional 1.2, anything else 1.0 |
| Simulation.AccuracyVariance | components/SimulationModal.tsx:359 | high gives 0.1, medium 0.2, anything else 0.3 |
| Simulation.JitterPositive | components/SimulationModal.tsx:361-362 | a draw in [0, 1) with variance at most 0.3 gives a factor in [0.85, 1.15] |
| Simulation.ProjectedChangeNotPositive | components/SimulationModal.tsx:354-362 | a non-negative reduction with a positive multiplier and factor never projects a worsening |
| Simulation.ThroughputChange | components/SimulationModal.tsx:363 | the throughput change is ≥ 0 when congestion falls and ≤ 0 otherwise |
| Simulation.RoundNegatedFifths | components/SimulationModal.tsx:363 | three fifths of a whole number is never a half, so rounding commutes with negation there |
| Simulation.ThroughputMagnitude | components/SimulationModal.tsx:363 | the magnitude of the throughput change is round(0.6·\|congestion change\|) |
| Simulation.ImpactTier | components/SimulationModal.tsx:366-375 | excellent exactly when delay < −10 and congestion < −15. At least good exactly when delay < −5 and congestion < −10. At least minor exactly when both are < 0 |
| Simulation.ImpactTierMonotone | components/SimulationModal.tsx:366-375 | a projection at least as good on both measures never gets a worse verdict |
| Simulation.GenerateSimulationResult | components/SimulationModal.tsx:352-391 | the scenario is the title; parameters, id and timestamp pass through. The delay and congestion changes are round(−reduction · scope multiplier · (1 + (r − 0.5) · variance)) with the first and second draws. Affected trains are round(count · multiplier). Confidence is max(70, confidence + (r3 − 0.5) · 20). The throughput follows the sign rule and the verdict text follows the tier chain |
| Simulation.SimulationNeverWorsens | components/SimulationModal.tsx:354-363 | with draws in [0, 1) and non-negative reductions, delay and congestion changes are ≤ 0 and throughput ≥ 0 |
| Simulation.AffectedTrainsScaled | components/SimulationModal.tsx:364 | n ≤ round(n · multiplier) ≤ 1.5·n rounded |
| DemoData.CountOfEight | lib/demoData.ts:258-262 | a count over eight items is the sum of their contributions |
| DemoData.LatenessSum | lib/demoData.ts:263 | the sum of max(0, delay) is non-negative, and 0 when no train is late |
| DemoData.InitialNetworkStats | lib/demoData.ts:258-267 | the total is the train count; on time, delayed and emergency are the counts of trains with those statuses and add up to at most the total; the average delay is the rounded mean of the lateness sum over all trains ((m − ½)·n ≤ sum < (m + ½)·n), so it is non-negative |
| DemoData.DemoLatenessSum | lib/demoData.ts:142-263 | the eight demo trains are 87 minutes late in all |
| DemoData.DemoNetworkStats | lib/demoData.ts:142-267 | the demo statistics are 8 trains, 5 on time, 2 delayed, 1 emergency, an average delay of 11, throughput 87.5, 3 disruptions and 2 hotspots |
| DemoData.DemoRecommendations | lib/demoData.ts:327-409 | four recommendations, carrying the generated ids and timestamps in order |
| DemoData.DemoRecommendationsWellFormed | lib/demoData.ts:327-409 | every demo recommendation is pending and at most 100% confident. Its affected-train count equals the length of its list, and the list contains its own train |
| DemoData.HowrahKgpLine | lib/demoData.ts:413-483 | the line has 9 stations, 8 sections and 23 trains |
| DemoData.SectionsTileLine | lib/demoData.ts:436-443 | the sections tile [0, 100]: the first starts at 0, each ends where the next starts, the last ends at 100, and each has start < end |
| DemoData.TiledPositionHasSection | lib/demoData.ts:436-443 | in sections that tile a range, every position of the range lies in some section |
| DemoData.StationsIncreasing | lib/demoData.ts:415-423 | station km values rise strictly from 0 to 100 |
| DemoData.SectionsJoinStations | lib/demoData.ts:415-443 | each section's from and to codes are the stations at its start and end km |
| DemoData.TrainsOnLine | lib/demoData.ts:457-479 | every train is on [0, 100] with speed ≥ 0, and the only stopped train is in emergency |
| DemoData.FixtureStepStaysOnLine | lib/demoData.ts:457-479 | after a tick every fixture train is still on the line |
| DemoData.NoMovingTrainNear | lib/demoData.ts:457-479 | no moving fixture train is within 2 km of km 8 or km 75 |
| DemoData.ShalimarBoundaryGreen | lib/demoData.ts:436-438 | at the shared boundary km 8 the earlier, clear section wins over the occupied one, so the aspect is green |
| DemoData.MechedaRed | lib/demoData.ts:419-465 | the train at km 45 moving at 80 km/h makes Mecheda's home aspect red |
| DemoData.StoppedTrainDoesNotForceRed | lib/demoData.ts:442-478 | the stopped emergency train at km 75 does not force red; the clear section there gives green |
| Dashboard.UpdateStats | components/StatusDashboard.tsx:56-75 | with no trains the figures stay. Otherwise every train is counted under exactly one of on time, delayed and emergency (emergency or maintenance). The average delay is the mean of the signed delays, and the active alerts are the unacknowledged ones |
| Dashboard.StatusCountsPartition | components/StatusDashboard.tsx:59-61 | every train is counted under exactly one of on time, delayed and emergency, so the three counts add up to the number of trains |
| Dashboard.Mean | components/StatusDashboard.tsx:62-63 | the average times the number of trains gives back the delay sum, and it is negative exactly when the sum is |
| Dashboard.UpdateStatsKeepsConsistent | components/StatusDashboard.tsx:14-75 | the initial figures are consistent and every recomputation keeps the three counts adding up to the total |
| Dashboard.EarlyDelaySum | components/StatusDashboard.tsx:62 | delays that are all negative sum to a negative number |
| Dashboard.AllEarlyGivesNegativeAverage | components/StatusDashboard.tsx:62-63 | early trains are not clipped: when all trains are early the average delay is negative |
| Dashboard.ActiveAlertsMatchPanel | components/StatusDashboard.tsx:64 | the dashboard's active alerts equal the alert panel's unacknowledged count |
| Dashboard.OnTimePercentage | components/StatusDashboard.tsx:96 | round(onTime/total·100) when total > 0, as the rounded mean of 100·onTime over total, and 0 otherwise. It is in [0, 100] and is 100 when every train is on time |
| Dashboard.ConsistentPercentageBounded | components/StatusDashboard.tsx:96 | the percentage of any consistent figures is in [0, 100] |
| Dashboard.StatusDistribution | components/StatusDashboard.tsx:123-128 | four slices with their labels and colours. The first three are the counts; the Maintenance slice is never negative |
| Dashboard.MaintenanceSliceEmpty | components/StatusDashboard.tsx:61-127 | for consistent figures the Maintenance slice is 0 and the four slices add up to the total |
| Dashboard.MaintenanceSliceEmptyAfterUpdate | components/StatusDashboard.tsx:56-127 | after any recomputation from consistent figures the Maintenance slice is 0 |
| Overview.LateDelaySum | components/NetworkOverview.tsx:35-37 | late trains add up to at least one minute each |
| Overview.AverageLateDelay | components/NetworkOverview.tsx:35-38 | when some train is late, the figure is the rounded mean of the late trains' delays ((m − ½)·n ≤ sum < (m + ½)·n over the n late trains); it is non-negative, and 0 exactly when no train is late |
| Overview.MeanAtLeastOne | components/NetworkOverview.tsx:37 | a sum of at least n over n items has a rounded mean of at least 1 |
| Overview.LineStatistics | components/NetworkOverview.tsx:25-59 | the total is the train count. The on-time, delayed and maintenance counts are the numbers of trains with that status, and add up to at most the total. The average delay is that of the late trains. Occupied sections are at most the sections. Active and total signals are both 2·stations + sections |
| Overview.OnTimePercentage | components/NetworkOverview.tsx:77 | Round(100·onTime/total) when total > 0, in [0, 100] when 0 ≤ onTime ≤ total; no finite value exactly when total is 0 |
| Overview.SectionUtilization | components/NetworkOverview.tsx:78 | Round(100·occupied/sections) when sections > 0, in [0, 100] when 0 ≤ occupied ≤ sections; no finite value exactly when there are no sections |
| Overview.PercentagesBounded | components/NetworkStatusDropdown.tsx:25-78 | for line data with trains and sections, both percentages of the computed figures are in [0, 100] |
| Overview.ActiveAgents | components/NetworkStatusDropdown.tsx:79-80 | the active agents are at most the total. They equal it exactly when all agents are active, and are 0 exactly when none is |
| AlertsView.FilteredAlerts | components/AlertsPanel.tsx:20-22 | 'all' shows every alert. 'unacknowledged' shows exactly the unacknowledged alerts |
| AlertsView.FilteredAlertsKeepOrder | components/AlertsPanel.tsx:20-22 | the filter distributes over concatenation, so the shown alerts keep their original order |
| AlertsView.UnacknowledgedCount | components/AlertsPanel.tsx:24 | the count is the length of the unacknowledged view |
| AlertsView.FilterSamePredicate | components/AlertsPanel.tsx:20-24 | predicates that agree select the same alerts |
| AlertsView.ResolvedCount | components/AlertsPanel.tsx:140 | the "Resolved" count is at most the number of alerts |
| AlertsView.UnacknowledgedPlusResolved | components/AlertsPanel.tsx:24-140 | the unacknowledged and resolved counts add up to the number of alerts |
| AlertsView.SeverityCount | components/AlertsPanel.tsx:122-134 | a severity counter is at most the number of alerts |
| AlertsView.FooterCountsBounded | components/AlertsPanel.tsx:122-134 | critical, error and warning add up to at most the number of alerts; only the info alerts are left out |
| AlertsView.SeriousSplit | components/AlertsPanel.tsx:122-134 | the alerts that are not info are the critical, error and warning ones |
| AlertsView.AcknowledgedLeavesView | components/AlertsPanel.tsx:20-22 | after `acknowledgeAlert`, no alert with that id is in the unacknowledged view |
| AlertsView.SeverityColor | components/AlertsPanel.tsx:36-44 | critical and error share the red classes. Warning gets orange and info blue. Exactly the unknown severities get gray |
| AlertsView.SeverityNamesColoured | components/AlertsPanel.tsx:36-44 | no severity an alert can carry gets the gray default |
| Utils.FormatDelay | lib/utils.ts:8-12 | "On time" exactly for 0. A leading '+' exactly when late, with the form "+" + minutes + "m". A leading '-' exactly when early, with the form minutes + "m early" (the minus sign printed by the number) |
| Utils.FormatDelayInjective | lib/utils.ts:8-12 | distinct delays get distinct labels |
| Utils.StatusColor | lib/utils.ts:14-22 | exactly the strings that are not train statuses get the gray text class |
| Utils.StatusBgColor | lib/utils.ts:24-32 | exactly the strings that are not train statuses get the gray background class |
| Utils.StatusColorsDistinct | lib/utils.ts:14-32 | the four statuses get four different colours in each table, none gray |
| Utils.UrgencyColor | lib/utils.ts:72-80 | exactly the strings that are not urgency levels get gray |
| Utils.UrgencyColorsDistinct | lib/utils.ts:72-80 | the four urgency levels get four different colours, none gray |
| Utils.AlertIcon | lib/utils.ts:82-91 | exactly the strings that are not alert types get the information sign |
| Utils.AlertIconsDistinct | lib/utils.ts:82-91 | the five alert types get five different icons, none the default |
| Utils.FormatNumber | lib/utils.ts:108-116 | millions exactly from 1000000 up, thousands exactly in [1000, 1000000), the plain number below 1000. The scaled value times its unit is the number |

## Left out

- Rendering is not modelled: JSX, SVG, charts, tooltips and legends in every component. The map view (components/TrainMap.tsx) and the header clock (components/Header.tsx) are not part of this model.
- Timers and wiring are not modelled, because they are scheduling, not rules:
  - the 5-second interval at components/RailwaySignaling.tsx:114-117, which passes the initial trains to `updateSignals`;
  - the 2- and 5-second stat refresh intervals;
  - the recommendation and simulation timers.
  No operation feeds moved trains into signal evaluation, because the code does not do that.
- Signaling.SignalBoard.UpdateTrainPositions: the `lineData` guard at components/RailwaySignaling.tsx:157 reads the value the calling closure captured. That value is a parameter here. As wired, the closure captured the value before the data was set, so trains never move.
- Pan and zoom (components/RailwaySignaling.tsx:183-272) are not modelled; they are viewport geometry on floating-point numbers.
- Randomness, ids and clocks are parameters:
  - the three `Math.random()` draws of `generateSimulationResult`, for delay, congestion and confidence (components/SimulationModal.tsx:361, 362 and 388);
  - the ids from `generateId`;
  - the timestamps from `Date`.
  Random recommendation and alert generation and the chart series are not modelled.
- Floating point is not modelled. Arithmetic is exact on reals, so JavaScript rounding artefacts are not captured.
- Latitude/longitude positions and `calculateDistance`/`interpolatePosition` are not modelled. Neither are the date formatters, `formatPercentage` and `cn`.
- Utils.FormatNumber: the one-decimal `toFixed` rendering is not modelled; only the unit chosen and the scaled value are.
- Utils.FormatDelay: whole minutes only; fractional minutes are not modelled.
- The `direction` field of the store's train record (types/index.ts:17) is not modelled. No modelled store operation reads it; the line trains of the signalling board carry their own 'up'/'down' direction.
- Types.Percent: a division by zero gives no value (`None`). The NaN or Infinity the code would compute is not modelled.
- The recommendation patch `Partial<AIRecommendation>` is modelled over the required fields only. It leaves out the optional `trainId` and `affectedTrains` (types/index.ts:46-47), because the status changes pass only `{ status }` (components/AIRecommendations.tsx:114, 122, 135).
- DemoData.InitialNetworkStats: requires at least one train. The code only applies it to the eight demo trains, and the division by zero for an empty list is not modelled.
- The demo stations, tracks, agents and alerts of `initializeDemoData` are records with no rules. Only the trains and the statistics computed from them are modelled.
- DemoData.DemoRecommendations: the generated ids and the `Date.now()` timestamps are parameters.
- Simulation.GenerateSimulationResult: the products are exact reals before rounding, so floating-point rounding artefacts are not captured.
- A train running 'down' moves towards km 100 and one running 'up' towards km 0 (components/RailwaySignaling.tsx:169-171).

=== FILE: alerts.dfy ===
/**
 * The alert panel's derived values (components/AlertsPanel.tsx): the list shown
 * under the "all" and "unacknowledged" filters, the unacknowledged count in the
 * header, the colour classes per severity and the counters in the footer.
 */
module AlertsView {
  import opened Types
  import opened Seqs
  import Store

  /** The panel's filter setting. */
  datatype AlertFilter = ShowAll | ShowUnacknowledged

  /** `alerts.filter(alert => filter === 'all' || !alert.acknowledged)` */
  function FilteredAlerts(alerts: seq<Alert>, filter: AlertFilter): (r: seq<Alert>)
    ensures filter == ShowAll ==> r == alerts
    ensures filter == ShowUnacknowledged ==>
              (forall i :: 0 <= i < |r| ==> r[i] in alerts && !r[i].acknowledged)
              && (forall i :: 0 <= i < |alerts| && !alerts[i].acknowledged ==> alerts[i] in r)
  {
    var keep := (a: Alert) => filter == ShowAll || !a.acknowledged;
    if filter == ShowAll then
      FilterAll(alerts, keep);
      Filter(alerts, keep)
    else Filter(alerts, keep)
  }

  /** Filtering two runs of alerts one after the other filters each run in turn: the shown alerts keep their order. */
  lemma FilteredAlertsKeepOrder(a: seq<Alert>, b: seq<Alert>, filter: AlertFilter)
    ensures FilteredAlerts(a + b, filter) == FilteredAlerts(a, filter) + FilteredAlerts(b, filter)
  {
    FilterAppend(a, b, (x: Alert) => filter == ShowAll || !x.acknowledged);
  }

  /** `alerts.filter(alert => !alert.acknowledged).length`: the length of the unacknowledged view. */
  function UnacknowledgedCount(alerts: seq<Alert>): (n: nat)
    ensures n == |FilteredAlerts(alerts, ShowUnacknowledged)|
    ensures n <= |alerts|
  {
    assert Filter(alerts, (a: Alert) => ShowUnacknowledged == ShowAll || !a.acknowledged)
        == Filter(alerts, Unacknowledged) by {
      FilterSamePredicate(alerts, (a: Alert) => ShowUnacknowledged == ShowAll || !a.acknowledged, Unacknowledged);
    }
    Count(alerts, Unacknowledged)
  }

  /** Two predicates that agree on every element select the same elements. */
  lemma {:induction false} FilterSamePredicate<T>(s: seq<T>, p: T -> bool, q: T -> bool)
    requires forall x :: p(x) == q(x)
    ensures Filter(s, p) == Filter(s, q)
  {
    if s != [] {
      FilterSamePredicate(s[1..], p, q);
    }
  }

  predicate IsAcknowledged(a: Alert) { a.acknowledged }

  /** The footer's "Resolved" counter. */
  function ResolvedCount(alerts: seq<Alert>): (n: nat)
    ensures n <= |alerts|
  {
    Count(alerts, IsAcknowledged)
  }

  /** Every alert is either unacknowledged or resolved, never both. */
  lemma UnacknowledgedPlusResolved(alerts: seq<Alert>)
    ensures UnacknowledgedCount(alerts) + ResolvedCount(alerts) == |alerts|
  {
    CountComplement(alerts, Unacknowledged, IsAcknowledged);
  }

  /** `alerts.filter(a => a.severity === severity).length` */
  function SeverityCount(alerts: seq<Alert>, severity: Severity): (n: nat)
    ensures n <= |alerts|
  {
    Count(alerts, (a: Alert) => a.severity == severity)
  }

  /**
   * The critical, error and warning counters never add up to more than there are
   * alerts; they add up to all of them exactly when no alert is informational.
   */
  lemma FooterCountsBounded(alerts: seq<Alert>)
    ensures SeverityCount(alerts, Critical) + SeverityCount(alerts, Error) + SeverityCount(alerts, Warning) <= |alerts|
    ensures SeverityCount(alerts, Critical) + SeverityCount(alerts, Error) + SeverityCount(alerts, Warning)
            + SeverityCount(alerts, Info) == |alerts|
  {
    var critical := (a: Alert) => a.severity == Critical;
    var error := (a: Alert) => a.severity == Error;
    var warning := (a: Alert) => a.severity == Warning;
    var info := (a: Alert) => a.severity == Info;
    var serious := (a: Alert) => a.severity != Info;
    CountExclusive3(alerts, critical, error, warning);
    CountComplement(alerts, serious, info);
    SeriousSplit(alerts);
  }

  /** The alerts that are not informational are the critical, error and warning ones. */
  lemma {:induction false} SeriousSplit(alerts: seq<Alert>)
    ensures Count(alerts, (a: Alert) => a.severity != Info)
            == SeverityCount(alerts, Critical) + SeverityCount(alerts, Error) + SeverityCount(alerts, Warning)
  {
    if alerts != [] {
      SeriousSplit(alerts[1..]);
    }
  }

  /** Acknowledging an alert in the store removes every alert with that id from the unacknowledged view. */
  lemma AcknowledgedLeavesView(alerts: seq<Alert>, id: string)
    ensures var shown := FilteredAlerts(Store.AcknowledgedAlerts(alerts, id), ShowUnacknowledged);
            forall i :: 0 <= i < |shown| ==> shown[i].id != id
  {
  }

  const CriticalClasses := "text-status-red border-status-red bg-status-red/10"
  const WarningClasses := "text-status-orange border-status-orange bg-status-orange/10"
  const InfoClasses := "text-status-blue border-status-blue bg-status-blue/10"
  const DefaultClasses := "text-gray-400 border-gray-400 bg-gray-400/10"

  /** `getSeverityColor`: critical and error share the red classes; a severity outside the four gets gray. */
  function SeverityColor(severity: string): (c: string)
    ensures c == CriticalClasses <==> severity == "critical" || severity == "error"
    ensures c == WarningClasses <==> severity == "warning"
    ensures c == InfoClasses <==> severity == "info"
    ensures c == DefaultClasses <==> severity != "critical" && severity != "error" && severity != "warning" && severity != "info"
  {
    if severity == "critical" then CriticalClasses
    else if severity == "error" then CriticalClasses
    else if severity == "warning" then WarningClasses
    else if severity == "info" then InfoClasses
    else DefaultClasses
  }

  /** Every severity the alert record can carry gets its own colour, never the gray default. */
  lemma SeverityNamesColoured(s: Severity)
    ensures SeverityColor(SeverityName(s)) != DefaultClasses
  {
  }
}

=== FILE: dashboard.dfy ===
/**
 * The live statistics of the status dashboard (components/StatusDashboard.tsx):
 * `updateStats`, which recomputes the key figures from the store's trains and
 * alerts, the on-time percentage shown on its card, and the four slices of the
 * status distribution chart.
 */
module Dashboard {
  import opened Types
  import opened Seqs
  import AlertsView

  /** The component's `realTimeStats` state; the average delay is a fractional number of minutes. */
  datatype RealTimeStats = RealTimeStats(
    totalTrains: int,
    onTimeTrains: int,
    delayedTrains: int,
    emergencyTrains: int,
    averageDelay: real,
    activeAlerts: int)

  /** The state before the first recomputation: every figure 0. */
  const InitialStats := RealTimeStats(0, 0, 0, 0, 0.0, 0)

  /** Counted under "emergency": emergency and maintenance trains alike. */
  predicate IsStopped(t: Train) { t.status == Emergency || t.status == Maintenance }

  /** `trains.reduce((sum, train) => sum + train.delay, 0)`: signed, so early trains lower it. */
  function DelaySum(trains: seq<Train>): int
  {
    if trains == [] then 0 else trains[0].delay + DelaySum(trains[1..])
  }

  /**
   * `updateStats`: with no trains the previous figures stay; otherwise every train is
   * counted under exactly one of on time, delayed and emergency, the average delay is
   * the mean of the signed delays, and the active alerts are the unacknowledged ones.
   */
  function UpdateStats(current: RealTimeStats, trains: seq<Train>, alerts: seq<Alert>): (r: RealTimeStats)
    ensures trains == [] ==> r == current
    ensures trains != [] ==> r.totalTrains == |trains|
    ensures trains != [] ==> r.onTimeTrains + r.delayedTrains + r.emergencyTrains == r.totalTrains
    ensures trains != [] ==>
              r.onTimeTrains == Count(trains, IsOnTime) && r.delayedTrains == Count(trains, IsDelayed)
              && r.emergencyTrains == Count(trains, IsStopped)
    ensures trains != [] ==> r.averageDelay == Mean(DelaySum(trains), |trains|)
    ensures trains != [] ==> r.activeAlerts == Count(alerts, Unacknowledged)
  {
    if trains == [] then current
    else
      StatusCountsPartition(trains);
      RealTimeStats(
        |trains|,
        Count(trains, IsOnTime),
        Count(trains, IsDelayed),
        Count(trains, IsStopped),
        Mean(DelaySum(trains), |trains|),
        Count(alerts, Unacknowledged))
  }

  /** Every train is on time, delayed or stopped, and only one of them. */
  lemma StatusCountsPartition(trains: seq<Train>)
    ensures Count(trains, IsOnTime) + Count(trains, IsDelayed) + Count(trains, IsStopped) == |trains|
  {
    forall i | 0 <= i < |trains|
      ensures (if IsOnTime(trains[i]) then 1 else 0) + (if IsDelayed(trains[i]) then 1 else 0)
              + (if IsStopped(trains[i]) then 1 else 0) == 1
    {
    }
    CountPartition3(trains, IsOnTime, IsDelayed, IsStopped);
  }

  /** The mean of `n` values whose sum is `sum`: times `n` it gives back the sum. */
  function Mean(sum: int, n: int): (m: real)
    requires n > 0
    ensures m * n as real == sum as real
    ensures m < 0.0 <==> sum < 0
  {
    var m := sum as real / n as real;
    assert m * n as real == sum as real;
    m
  }

  /** Figures in which the three status counts share out the total. */
  predicate Consistent(s: RealTimeStats)
  {
    s.onTimeTrains >= 0 && s.delayedTrains >= 0 && s.emergencyTrains >= 0
    && s.onTimeTrains + s.delayedTrains + s.emergencyTrains == s.totalTrains
  }

  /** The figures start consistent and every recomputation keeps them so. */
  lemma UpdateStatsKeepsConsistent(current: RealTimeStats, trains: seq<Train>, alerts: seq<Alert>)
    requires Consistent(current)
    ensures Consistent(InitialStats)
    ensures Consistent(UpdateStats(current, trains, alerts))
  {
  }

  /** Delays that are all early add up to a negative sum. */
  lemma {:induction false} EarlyDelaySum(trains: seq<Train>)
    requires trains != []
    requires forall i :: 0 <= i < |trains| ==> trains[i].delay < 0
    ensures DelaySum(trains) < 0
  {
    if |trains| > 1 {
      EarlyDelaySum(trains[1..]);
    }
  }

  /** Early trains are not clipped to zero: when every train runs early the average delay is negative. */
  lemma AllEarlyGivesNegativeAverage(current: RealTimeStats, trains: seq<Train>, alerts: seq<Alert>)
    requires trains != []
    requires forall i :: 0 <= i < |trains| ==> trains[i].delay < 0
    ensures UpdateStats(current, trains, alerts).averageDelay < 0.0
  {
    EarlyDelaySum(trains);
  }

  /** The dashboard's active-alert figure is the alert panel's unacknowledged count. */
  lemma ActiveAlertsMatchPanel(current: RealTimeStats, trains: seq<Train>, alerts: seq<Alert>)
    requires trains != []
    ensures UpdateStats(current, trains, alerts).activeAlerts == AlertsView.UnacknowledgedCount(alerts)
  {
  }

  /** The "On Time Performance" card: the rounded percentage of on-time trains, 0 when there are none. */
  function OnTimePercentage(s: RealTimeStats): (p: int)
    ensures s.totalTrains <= 0 ==> p == 0
    ensures s.totalTrains > 0 && 0 <= s.onTimeTrains <= s.totalTrains ==> 0 <= p <= 100
    ensures s.totalTrains > 0 && s.onTimeTrains == s.totalTrains ==> p == 100
    ensures s.totalTrains > 0 ==> p == RoundedMean(100 * s.onTimeTrains, s.totalTrains)
  {
    if s.totalTrains > 0 then Percent(s.onTimeTrains, s.totalTrains).value else 0
  }

  /** The on-time percentage of any figures the dashboard shows lies in [0, 100]. */
  lemma ConsistentPercentageBounded(s: RealTimeStats)
    requires Consistent(s)
    ensures 0 <= OnTimePercentage(s) <= 100
  {
  }

  /** One slice of the status chart: label, value and fill colour. */
  datatype Slice = Slice(name: string, value: int, color: string)

  /** `statusDistribution` */
  function StatusDistribution(s: RealTimeStats): (slices: seq<Slice>)
    ensures |slices| == 4
    ensures slices[0] == Slice("On Time", s.onTimeTrains, "#00ff88")
    ensures slices[1] == Slice("Delayed", s.delayedTrains, "#ff8800")
    ensures slices[2] == Slice("Emergency", s.emergencyTrains, "#ff3333")
    ensures slices[3].name == "Maintenance" && slices[3].color == "#ffff00" && slices[3].value >= 0
  {
    [ Slice("On Time", s.onTimeTrains, "#00ff88"),
      Slice("Delayed", s.delayedTrains, "#ff8800"),
      Slice("Emergency", s.emergencyTrains, "#ff3333"),
      Slice("Maintenance",
            MaxInt(0, s.totalTrains - s.onTimeTrains - s.delayedTrains - s.emergencyTrains),
            "#ffff00") ]
  }

  /**
   * The Maintenance slice is always empty: maintenance trains are already counted
   * under emergency, so the four slices add up to the total with nothing left over.
   */
  lemma MaintenanceSliceEmpty(s: RealTimeStats)
    requires Consistent(s)
    ensures StatusDistribution(s)[3].value == 0
    ensures var d := StatusDistribution(s); d[0].value + d[1].value + d[2].value + d[3].value == s.totalTrains
  {
  }

  /** The same holds for any figures `updateStats` produces from consistent ones, whatever the trains. */
  lemma MaintenanceSliceEmptyAfterUpdate(current: RealTimeStats, trains: seq<Train>, alerts: seq<Alert>)
    requires Consistent(current)
    ensures StatusDistribution(UpdateStats(current, trains, alerts))[3].value == 0
  {
    UpdateStatsKeepsConsistent(current, trains, alerts);
    MaintenanceSliceEmpty(UpdateStats(current, trains, alerts));
  }
}

=== FILE: demodata.dfy ===
/**
 * The demo fixture (lib/demoData.ts): the eight store trains and the network
 * statistics computed from them, the four demo recommendations, and the
 * Howrah–Kharagpur line (stations, track sections and trains) that the
 * signaling view runs on.
 */
module DemoData {
  import opened Types
  import opened Seqs
  import Signaling

  const Train12951 := Train("train-12951", "Mumbai Rajdhani", "Mumbai CST → New Delhi", Delayed, 95, 15, "14:30", "Nagpur Junction", 1200, 1500)
  const Train12002 := Train("train-12002", "Shatabdi Express", "New Delhi → Bhopal", OnTime, 120, 0, "11:45", "Gwalior Junction", 800, 1000)
  const Train12626 := Train("train-12626", "Kerala Express", "New Delhi → Thiruvananthapuram", OnTime, 85, -5, "06:20", "Hubli Junction", 1400, 1600)
  const Train12840 := Train("train-12840", "Howrah Mail", "Mumbai CST → Howrah", Delayed, 78, 25, "22:15", "Bhubaneswar", 1100, 1300)
  const Train12434 := Train("train-12434", "Chennai Rajdhani", "Chennai Central → New Delhi", OnTime, 110, 0, "05:55", "Secunderabad", 900, 1200)
  const Train19024 := Train("train-19024", "Firozpur Janata", "Firozpur → Mumbai CST", Emergency, 0, 45, "DELAYED", "Dhanbad Junction", 1300, 1500)
  const Train12615 := Train("train-12615", "Grand Trunk Express", "New Delhi → Chennai Central", OnTime, 105, 2, "18:40", "Prayagraj Junction", 1000, 1400)
  const Train12009 := Train("train-12009", "Mumbai-Ahmedabad Shatabdi", "Mumbai Central → Ahmedabad", OnTime, 130, 0, "12:30", "Vadodara Junction", 600, 800)

  /** The store trains of `initializeDemoData`; map positions and headings are display data. */
  const DemoTrains: seq<Train> := [Train12951, Train12002, Train12626, Train12840, Train12434, Train19024, Train12615, Train12009]

  /** A count over eight elements is the sum of what each contributes. */
  lemma CountOfEight<T>(s: seq<T>, p: T -> bool)
    requires |s| == 8
    ensures Count(s, p)
            == (if p(s[0]) then 1 else 0) + (if p(s[1]) then 1 else 0)
             + (if p(s[2]) then 1 else 0) + (if p(s[3]) then 1 else 0)
             + (if p(s[4]) then 1 else 0) + (if p(s[5]) then 1 else 0)
             + (if p(s[6]) then 1 else 0) + (if p(s[7]) then 1 else 0)
  {
    CountCons(s[7..], p);
    CountCons(s[6..], p);
    assert s[6..][1..] == s[7..];
    CountCons(s[5..], p);
    assert s[5..][1..] == s[6..];
    CountCons(s[4..], p);
    assert s[4..][1..] == s[5..];
    CountCons(s[3..], p);
    assert s[3..][1..] == s[4..];
    CountCons(s[2..], p);
    assert s[2..][1..] == s[3..];
    CountCons(s[1..], p);
    assert s[1..][1..] == s[2..];
    CountCons(s, p);
  }

  /** `trains.reduce((sum, t) => sum + Math.max(0, t.delay), 0)`: lateness only, early running counts as zero. */
  function LatenessSum(trains: seq<Train>): (total: int)
    ensures total >= 0
    ensures (forall i :: 0 <= i < |trains| ==> trains[i].delay <= 0) ==> total == 0
  {
    if trains == [] then 0 else MaxInt(0, trains[0].delay) + LatenessSum(trains[1..])
  }

  predicate IsEmergency(t: Train) { t.status == Emergency }

  /** The `networkStats` object of `initializeDemoData`; throughput, disruptions and hotspots are fixed figures. */
  function InitialNetworkStats(trains: seq<Train>): (s: NetworkStats)
    requires |trains| > 0
    ensures s.totalTrains == |trains|
    ensures s.onTimeTrains == Count(trains, IsOnTime) && s.delayedTrains == Count(trains, IsDelayed)
            && s.emergencyTrains == Count(trains, IsEmergency)
    ensures s.onTimeTrains + s.delayedTrains + s.emergencyTrains <= s.totalTrains
    ensures s.averageDelay >= 0
    ensures IsRoundedMean(s.averageDelay, LatenessSum(trains), |trains|)
  {
    CountExclusive3(trains, IsOnTime, IsDelayed, IsEmergency);
    var averageDelay := RoundedMean(LatenessSum(trains), |trains|);
    NetworkStats(
      |trains|,
      Count(trains, IsOnTime),
      Count(trains, IsDelayed),
      Count(trains, IsEmergency),
      averageDelay,
      87.5,
      3,
      2)
  }

  /** The demo trains run 87 minutes late in all; the early Kerala Express counts as zero. */
  lemma DemoLatenessSum()
    ensures LatenessSum(DemoTrains) == 87
  {
    var s := DemoTrains;
    assert s[8..] == [];
    assert s[7..][1..] == s[8..];
    assert LatenessSum(s[7..]) == 0;
    assert s[6..][1..] == s[7..];
    assert LatenessSum(s[6..]) == 2;
    assert s[5..][1..] == s[6..];
    assert LatenessSum(s[5..]) == 47;
    assert s[4..][1..] == s[5..];
    assert LatenessSum(s[4..]) == 47;
    assert s[3..][1..] == s[4..];
    assert LatenessSum(s[3..]) == 72;
    assert s[2..][1..] == s[3..];
    assert LatenessSum(s[2..]) == 72;
    assert s[1..][1..] == s[2..];
    assert LatenessSum(s[1..]) == 72;
  }

  /** The demo statistics: 8 trains, 5 on time, 2 delayed, 1 emergency, and 87 minutes of lateness averaging to 11. */
  lemma DemoNetworkStats()
    ensures InitialNetworkStats(DemoTrains) == NetworkStats(8, 5, 2, 1, 11, 87.5, 3, 2)
  {
    DemoLatenessSum();
    assert Round(87.0 / 8.0) == 11;
    CountOfEight(DemoTrains, IsOnTime);
    CountOfEight(DemoTrains, IsDelayed);
    CountOfEight(DemoTrains, IsEmergency);
  }

  /** Titles and descriptions of the demo recommendations. */
  const PriorityTitle := "Priority Signal for Howrah Mail at Bagnan"
  const PriorityDescription := "Howrah Mail (25min delay) approaching Bagnan. Grant priority over EMU Local to reduce passenger delay on long-distance service."
  const RerouteTitle := "Reroute Hirakhand Express via Loop Line"
  const RerouteDescription := "Congestion at Mecheda. Route Hirakhand via loop line to allow Kamakhya Express clear run. Saves 15 minutes overall."
  const MaintenanceTitle := "Goods Train Maintenance at Uluberia"
  const MaintenanceDescription := "Goods train showing reduced speed (25 kmph). Schedule immediate inspection at Uluberia yard to prevent line blocking."
  const HoldTitle := "Hold EMU at Shalimar for 2 minutes"
  const HoldDescription := "Ispat Express approaching HWH on time. Brief EMU hold prevents platform congestion and ensures smooth arrival."

  /** `generateDemoRecommendations()`, with the generated ids and the timestamps as parameters. */
  function DemoRecommendations(ids: seq<string>, timestamps: seq<string>): (recs: seq<Recommendation>)
    requires |ids| == 4 && |timestamps| == 4
    ensures |recs| == 4
    ensures forall i :: 0 <= i < 4 ==> recs[i].id == ids[i] && recs[i].timestamp == timestamps[i]
  {
    [
      Recommendation(ids[0], "agent-resolver", "HWH-KGP Traffic Controller", Priority,
        Some("train-12840"), Some(["train-12840", "train-58016"]),
        PriorityTitle,
        PriorityDescription,
        Impact(8, 12, 2, 15), 94, timestamps[0], Pending, UrgencyHigh),
      Recommendation(ids[1], "agent-scheduler", "KGP Section Optimizer", Reroute,
        Some("train-18448"), Some(["train-18448", "train-22512"]),
        RerouteTitle,
        RerouteDescription,
        Impact(15, 20, 2, 25), 89, timestamps[1], Pending, UrgencyMedium),
      Recommendation(ids[2], "agent-maintenance", "Track Maintenance AI", MaintenanceStop,
        Some("train-58018"), Some(["train-58018"]),
        MaintenanceTitle,
        MaintenanceDescription,
        Impact(0, 30, 1, 45), 96, timestamps[2], Pending, UrgencyHigh),
      Recommendation(ids[3], "agent-predictor", "EMU Schedule Optimizer", Delay,
        Some("train-58014"), Some(["train-58014", "train-12872"]),
        HoldTitle,
        HoldDescription,
        Impact(5, 18, 2, 12), 91, timestamps[3], Pending, UrgencyMedium)
    ]
  }

  /** A recommendation whose fields agree with one another. */
  predicate WellFormedRecommendation(r: Recommendation)
  {
    r.status == Pending && 0 <= r.confidence <= 100
    && r.affectedTrains.Some?
    && r.impact.affectedTrains == |r.affectedTrains.value|
    && r.trainId.Some? && r.trainId.value in r.affectedTrains.value
  }

  /** Every demo recommendation is pending, at most 100% confident, counts its affected trains correctly and lists its own train. */
  lemma DemoRecommendationsWellFormed(ids: seq<string>, timestamps: seq<string>)
    requires |ids| == 4 && |timestamps| == 4
    ensures forall r :: r in DemoRecommendations(ids, timestamps) ==> WellFormedRecommendation(r)
  {
    var recs := DemoRecommendations(ids, timestamps);
    assert WellFormedRecommendation(recs[0]);
    assert WellFormedRecommendation(recs[1]);
    assert WellFormedRecommendation(recs[2]);
    assert WellFormedRecommendation(recs[3]);
  }

  /** The stations of `getHowrahKgpLineData`, by kilometre post. */
  const HowrahKgpStations: seq<Signaling.LineStation> := [
    Signaling.LineStation("HWH", "Howrah Junction", "HWH", 0.0, 23),
    Signaling.LineStation("SHE", "Shalimar", "SHE", 8.0, 4),
    Signaling.LineStation("ULU", "Uluberia", "ULU", 25.0, 3),
    Signaling.LineStation("BGA", "Bagnan", "BGA", 32.0, 2),
    Signaling.LineStation("MCA", "Mecheda", "MCA", 45.0, 3),
    Signaling.LineStation("TMZ", "Tamluk", "TMZ", 58.0, 2),
    Signaling.LineStation("HIJ", "Hijli", "HIJ", 72.0, 2),
    Signaling.LineStation("MDN", "Midnapore", "MDN", 85.0, 4),
    Signaling.LineStation("KGP", "Kharagpur Junction", "KGP", 100.0, 9)
  ]

  /** The track sections (signal blocks) between consecutive stations. */
  const HowrahKgpSections: seq<Signaling.TrackSection> := [
    Signaling.TrackSection("HWH-SHE", "HWH", "SHE", 0.0, 8.0, Signaling.Clear, 60),
    Signaling.TrackSection("SHE-ULU", "SHE", "ULU", 8.0, 25.0, Signaling.Occupied, 100),
    Signaling.TrackSection("ULU-BGA", "ULU", "BGA", 25.0, 32.0, Signaling.Clear, 110),
    Signaling.TrackSection("BGA-MCA", "BGA", "MCA", 32.0, 45.0, Signaling.Clear, 120),
    Signaling.TrackSection("MCA-TMZ", "MCA", "TMZ", 45.0, 58.0, Signaling.Occupied, 100),
    Signaling.TrackSection("TMZ-HIJ", "TMZ", "HIJ", 58.0, 72.0, Signaling.Caution, 80),
    Signaling.TrackSection("HIJ-MDN", "HIJ", "MDN", 72.0, 85.0, Signaling.Clear, 130),
    Signaling.TrackSection("MDN-KGP", "MDN", "KGP", 85.0, 100.0, Signaling.Occupied, 100)
  ]

  /** The 23 trains on the line. */
  const HowrahKgpTrains: seq<Signaling.LineTrain> := [
    Signaling.LineTrain("train-18030", "SHM Express", "HWH-KGP", 15.0, 85.0, 5, Signaling.Down, OnTime),
    Signaling.LineTrain("train-12860", "Gitanjali Exp", "HWH-KGP", 67.0, 95.0, 0, Signaling.Down, OnTime),
    Signaling.LineTrain("train-12810", "HWH-KGP Pass", "HWH-KGP", 38.0, 60.0, 12, Signaling.Down, Delayed),
    Signaling.LineTrain("train-18410", "Prasanti Exp", "KGP-HWH", 78.0, 105.0, 0, Signaling.Up, OnTime),
    Signaling.LineTrain("train-12020", "Shatabdi Exp", "HWH-KGP", 92.0, 120.0, -3, Signaling.Down, OnTime),
    Signaling.LineTrain("train-58012", "HWH-KGP Pass", "HWH-KGP", 22.0, 45.0, 8, Signaling.Down, Delayed),
    Signaling.LineTrain("train-12834", "ADI HWH Exp", "KGP-HWH", 55.0, 90.0, 15, Signaling.Up, Delayed),
    Signaling.LineTrain("train-22890", "Digha Express", "HWH-KGP", 73.0, 85.0, 0, Signaling.Down, OnTime),
    Signaling.LineTrain("train-18006", "KGP-HWH Exp", "KGP-HWH", 45.0, 80.0, 20, Signaling.Up, Delayed),
    Signaling.LineTrain("train-12802", "Purushottam", "HWH-KGP", 88.0, 110.0, 0, Signaling.Down, OnTime),
    Signaling.LineTrain("train-58014", "Local Pass", "HWH-KGP", 5.0, 35.0, 3, Signaling.Down, OnTime),
    Signaling.LineTrain("train-12704", "Falaknuma", "KGP-HWH", 95.0, 100.0, 10, Signaling.Up, Delayed),
    Signaling.LineTrain("train-18420", "Jagannath", "HWH-KGP", 62.0, 95.0, 0, Signaling.Down, OnTime),
    Signaling.LineTrain("train-12816", "Nandan Kanan", "KGP-HWH", 28.0, 85.0, 5, Signaling.Up, OnTime),
    Signaling.LineTrain("train-58016", "EMU Local", "HWH-KGP", 18.0, 40.0, 0, Signaling.Down, OnTime),
    Signaling.LineTrain("train-12906", "Porbandar", "KGP-HWH", 82.0, 90.0, 8, Signaling.Up, Delayed),
    Signaling.LineTrain("train-22512", "Kamakhya", "HWH-KGP", 48.0, 100.0, 0, Signaling.Down, OnTime),
    Signaling.LineTrain("train-12840", "Howrah Mail", "KGP-HWH", 65.0, 85.0, 25, Signaling.Up, Delayed),
    Signaling.LineTrain("train-18448", "Hirakhand", "HWH-KGP", 35.0, 75.0, 12, Signaling.Down, Delayed),
    Signaling.LineTrain("train-12872", "Ispat Express", "KGP-HWH", 12.0, 95.0, 0, Signaling.Up, OnTime),
    Signaling.LineTrain("train-58018", "Goods Train", "HWH-KGP", 58.0, 25.0, 0, Signaling.Down, Maintenance),
    Signaling.LineTrain("train-12254", "ANGA Express", "KGP-HWH", 90.0, 105.0, 0, Signaling.Up, OnTime),
    Signaling.LineTrain("train-18016", "Chhapra Exp", "HWH-KGP", 75.0, 0.0, 45, Signaling.Down, Emergency)
  ]

  /** `getHowrahKgpLineData()` */
  function HowrahKgpLine(): (data: Signaling.LineData)
    ensures |data.stations| == 9 && |data.sections| == 8 && |data.trains| == 23
  {
    Signaling.LineData(HowrahKgpStations, HowrahKgpSections, HowrahKgpTrains)
  }

  /** Sections laid end to end: the first starts at `from`, each ends where the next starts, the last ends at `to`, none is empty. */
  predicate Tiles(sections: seq<Signaling.TrackSection>, from: real, to: real)
  {
    |sections| > 0
    && sections[0].startKm == from
    && sections[|sections| - 1].endKm == to
    && (forall i :: 0 <= i < |sections| ==> sections[i].startKm < sections[i].endKm)
    && (forall i :: 0 <= i < |sections| - 1 ==> sections[i].endKm == sections[i + 1].startKm)
  }

  /** The fixture's sections tile the whole line, [0, 100]. */
  lemma SectionsTileLine()
    ensures Tiles(HowrahKgpSections, 0.0, Signaling.LineEndKm)
  {
  }

  /** On a tiled stretch every position lies in some section, so a signal there is always decided by a section. */
  lemma {:induction false} TiledPositionHasSection(sections: seq<Signaling.TrackSection>, from: real, to: real, position: real)
    requires Tiles(sections, from, to)
    requires from <= position <= to
    ensures Signaling.FirstContaining(sections, position).Some?
    decreases |sections|
  {
    if !Signaling.Contains(sections[0], position) {
      assert position > sections[0].endKm;
      TiledPositionHasSection(sections[1..], sections[0].endKm, to, position);
    }
  }

  /** Station kilometre posts rise strictly from 0 at Howrah to 100 at Kharagpur. */
  lemma StationsIncreasing()
    ensures HowrahKgpStations[0].km == 0.0 && HowrahKgpStations[|HowrahKgpStations| - 1].km == Signaling.LineEndKm
    ensures forall i, j :: 0 <= i < j < |HowrahKgpStations| ==> HowrahKgpStations[i].km < HowrahKgpStations[j].km
  {
  }

  /** Section i runs from station i to station i + 1: its codes and bounds are those stations'. */
  lemma SectionsJoinStations()
    ensures |HowrahKgpSections| + 1 == |HowrahKgpStations|
    ensures forall i :: 0 <= i < |HowrahKgpSections| ==>
              HowrahKgpSections[i].from == HowrahKgpStations[i].code
              && HowrahKgpSections[i].to == HowrahKgpStations[i + 1].code
              && HowrahKgpSections[i].startKm == HowrahKgpStations[i].km
              && HowrahKgpSections[i].endKm == HowrahKgpStations[i + 1].km
  {
  }

  /** Every train is on the line with a non-negative speed, and the one stopped train is the emergency. */
  lemma TrainsOnLine()
    ensures forall i :: 0 <= i < |HowrahKgpTrains| ==>
              0.0 <= HowrahKgpTrains[i].km <= Signaling.LineEndKm && HowrahKgpTrains[i].speed >= 0.0
    ensures forall i :: 0 <= i < |HowrahKgpTrains| && HowrahKgpTrains[i].speed == 0.0 ==>
              HowrahKgpTrains[i].status == Emergency
  {
  }

  /** One tick of movement keeps every fixture train on the line. */
  lemma FixtureStepStaysOnLine()
    ensures var moved := Signaling.StepAll(HowrahKgpTrains);
            forall i :: 0 <= i < |moved| ==> 0.0 <= moved[i].km <= Signaling.LineEndKm
  {
    TrainsOnLine();
    Signaling.StepAllKeepsLine(HowrahKgpTrains);
  }

  /** At km 8 and at km 75 no moving train of the fixture is within 2 km. */
  lemma NoMovingTrainNear(position: real)
    requires position == 8.0 || position == 75.0
    ensures forall k :: 0 <= k < |HowrahKgpTrains| ==> !Signaling.NearAndMoving(HowrahKgpTrains[k], position)
  {
  }

  /**
   * At Shalimar (km 8) both HWH-SHE and SHE-ULU contain the position; the earlier, clear one
   * wins over the occupied one, so with no moving train nearby (as in the fixture) the aspect is green.
   */
  lemma ShalimarBoundaryGreen(trains: seq<Signaling.LineTrain>)
    requires forall k :: 0 <= k < |trains| ==> !Signaling.NearAndMoving(trains[k], 8.0)
    ensures Signaling.FirstContaining(HowrahKgpSections, 8.0) == Some(0)
    ensures Signaling.Contains(HowrahKgpSections[1], 8.0) && HowrahKgpSections[1].status == Signaling.Occupied
    ensures Signaling.SignalState(8.0, trains, HowrahKgpSections) == Signaling.Green
  {
    Signaling.SectionDecides(8.0, trains, HowrahKgpSections, 0);
  }

  /** At Mecheda (km 45) train-18006 stands at the signal moving at 80 km/h, so the aspect is red. */
  lemma MechedaRed()
    ensures Signaling.SignalState(45.0, HowrahKgpTrains, HowrahKgpSections) == Signaling.Red
  {
    Signaling.ProximityForcesRed(45.0, HowrahKgpTrains, HowrahKgpSections, 8);
  }

  /**
   * At km 75 the fixture's only train within 2 km is the stopped emergency train; with no moving
   * train nearby the clear HIJ-MDN section decides, so the aspect is green.
   */
  lemma StoppedTrainDoesNotForceRed(trains: seq<Signaling.LineTrain>)
    requires forall k :: 0 <= k < |trains| ==> !Signaling.NearAndMoving(trains[k], 75.0)
    ensures HowrahKgpTrains[22].km == 75.0 && HowrahKgpTrains[22].speed == 0.0
    ensures Signaling.SignalState(75.0, trains, HowrahKgpSections) == Signaling.Green
  {
    Signaling.SectionDecides(75.0, trains, HowrahKgpSections, 6);
  }
}

=== FILE: overview.dfy ===
/**
 * The network status figures of the Howrah–Kharagpur line, computed by the same
 * `updateStats` in components/NetworkOverview.tsx and
 * components/NetworkStatusDropdown.tsx, the two percentages both views derive
 * from them, and the dropdown's active-agent count.
 */
module Overview {
  import opened Types
  import opened Seqs
  import Signaling

  /** The views' local `NetworkStats` record. */
  datatype LineStats = LineStats(
    totalTrains: int,
    onTimeTrains: int,
    delayedTrains: int,
    maintenanceTrains: int,
    averageDelay: int,
    occupiedSections: int,
    totalSections: int,
    activeSignals: int,
    totalSignals: int)

  predicate LineOnTime(t: Signaling.LineTrain) { t.status == OnTime }

  predicate LineDelayed(t: Signaling.LineTrain) { t.status == Delayed }

  predicate IsUnderMaintenance(t: Signaling.LineTrain) { t.status == Maintenance }

  /** `t.delay && t.delay > 0`: a train that is late by some minutes. */
  predicate RunningLate(t: Signaling.LineTrain) { t.delay > 0 }

  predicate IsOccupied(s: Signaling.TrackSection) { s.status == Signaling.Occupied }

  /** The sum of the trains' delays. */
  function LineDelaySum(trains: seq<Signaling.LineTrain>): int
  {
    if trains == [] then 0 else trains[0].delay + LineDelaySum(trains[1..])
  }

  /** Trains that are all late add up to at least one minute each. */
  lemma {:induction false} LateDelaySum(trains: seq<Signaling.LineTrain>)
    requires forall i :: 0 <= i < |trains| ==> RunningLate(trains[i])
    ensures LineDelaySum(trains) >= |trains|
  {
    if trains != [] {
      LateDelaySum(trains[1..]);
    }
  }

  /**
   * The rounded mean delay of the late trains, 0 when none is late. Early and
   * punctual trains do not pull it down, and it is 0 exactly when no train is late.
   */
  function AverageLateDelay(trains: seq<Signaling.LineTrain>): (avg: int)
    ensures avg >= 0
    ensures avg == 0 <==> forall i :: 0 <= i < |trains| ==> !RunningLate(trains[i])
    ensures var late := Filter(trains, RunningLate);
            |late| > 0 ==> IsRoundedMean(avg, LineDelaySum(late), |late|)
  {
    var late := Filter(trains, RunningLate);
    CountZero(trains, RunningLate);
    if |late| > 0 then
      LateDelaySum(late);
      MeanAtLeastOne(LineDelaySum(late), |late|);
      var avg := RoundedMean(LineDelaySum(late), |late|);
      avg
    else 0
  }

  /** A sum of at least `n` over `n` items has a mean of at least 1, which rounds to at least 1. */
  lemma MeanAtLeastOne(sum: int, n: int)
    requires 0 < n <= sum
    ensures RoundedMean(sum, n) >= 1
  {
  }

  /**
   * `updateStats` over the line data: the three status counts never exceed the
   * total, the average delay is that of the late trains, the occupied sections
   * are among the sections, and every station carries two signals plus one per
   * section, all of them active.
   */
  function LineStatistics(data: Signaling.LineData): (s: LineStats)
    ensures s.totalTrains == |data.trains|
    ensures 0 <= s.onTimeTrains && 0 <= s.delayedTrains && 0 <= s.maintenanceTrains
    ensures s.onTimeTrains + s.delayedTrains + s.maintenanceTrains <= s.totalTrains
    ensures s.onTimeTrains == Count(data.trains, LineOnTime) && s.delayedTrains == Count(data.trains, LineDelayed)
    ensures s.maintenanceTrains == Count(data.trains, IsUnderMaintenance)
    ensures s.averageDelay == AverageLateDelay(data.trains)
    ensures s.averageDelay >= 0
    ensures 0 <= s.occupiedSections <= s.totalSections == |data.sections|
    ensures s.occupiedSections == Count(data.sections, IsOccupied)
    ensures s.activeSignals == s.totalSignals == 2 * |data.stations| + |data.sections|
  {
    CountExclusive3(data.trains, LineOnTime, LineDelayed, IsUnderMaintenance);
    var activeSignals := |data.stations| * 2 + |data.sections|;
    LineStats(
      |data.trains|,
      Count(data.trains, LineOnTime),
      Count(data.trains, LineDelayed),
      Count(data.trains, IsUnderMaintenance),
      AverageLateDelay(data.trains),
      Count(data.sections, IsOccupied),
      |data.sections|,
      activeSignals,
      activeSignals)
  }

  /** `Math.round(onTimeTrains / totalTrains * 100)`; no finite number for an empty train list. */
  function OnTimePercentage(s: LineStats): (p: Option<int>)
    ensures p.None? <==> s.totalTrains == 0
    ensures s.totalTrains > 0 && 0 <= s.onTimeTrains <= s.totalTrains ==> p.Some? && 0 <= p.value <= 100
    ensures s.totalTrains > 0 ==> p == Some(RoundedMean(100 * s.onTimeTrains, s.totalTrains))
  {
    Percent(s.onTimeTrains, s.totalTrains)
  }

  /** `Math.round(occupiedSections / totalSections * 100)`; no finite number for an empty section list. */
  function SectionUtilization(s: LineStats): (p: Option<int>)
    ensures p.None? <==> s.totalSections == 0
    ensures s.totalSections > 0 && 0 <= s.occupiedSections <= s.totalSections ==> p.Some? && 0 <= p.value <= 100
    ensures s.totalSections > 0 ==> p == Some(RoundedMean(100 * s.occupiedSections, s.totalSections))
  {
    Percent(s.occupiedSections, s.totalSections)
  }

  /** For line data with trains and sections, both percentages of the computed figures lie in [0, 100]. */
  lemma PercentagesBounded(data: Signaling.LineData)
    requires data.trains != [] && data.sections != []
    ensures var s := LineStatistics(data);
            OnTimePercentage(s).Some? && 0 <= OnTimePercentage(s).value <= 100
            && SectionUtilization(s).Some? && 0 <= SectionUtilization(s).value <= 100
  {
  }

  predicate IsActive(a: Agent) { a.status == Active }

  /** The dropdown's `activeAgents`: at most `totalAgents`, and equal to it exactly when every agent is active. */
  function ActiveAgents(agents: seq<Agent>): (n: nat)
    ensures n <= |agents|
    ensures n == |agents| <==> forall i :: 0 <= i < |agents| ==> agents[i].status == Active
    ensures n == 0 <==> forall i :: 0 <= i < |agents| ==> agents[i].status != Active
  {
    CountFull(agents, IsActive);
    CountZero(agents, IsActive);
    Count(agents, IsActive)
  }
}

=== FILE: recommendations.dfy ===
/**
 * Accepting a recommendation (components/AIRecommendations.tsx,
 * `applyRecommendationChanges`): each listed train that the component's train
 * list contains receives a per-type update through the store's `updateTrain`.
 * New values come from that list, which is read before the first update.
 */
module Recommendations {
  import opened Types
  import Store

  /** `trains.find(t => t.id === id)`: the first train with the id, if any. */
  function Find(trains: seq<Train>, id: string): (r: Option<Train>)
    ensures r.Some? ==> r.value in trains && r.value.id == id
    ensures r.None? <==> forall i :: 0 <= i < |trains| ==> trains[i].id != id
  {
    if trains == [] then None
    else if trains[0].id == id then Some(trains[0])
    else Find(trains[1..], id)
  }

  /** The index of the first train with the id, or the length when there is none. */
  function FirstWithId(trains: seq<Train>, id: string): (k: nat)
    ensures k <= |trains|
    ensures forall i :: 0 <= i < k ==> trains[i].id != id
    ensures k < |trains| ==> trains[k].id == id
  {
    if trains == [] then 0
    else if trains[0].id == id then 0
    else 1 + FirstWithId(trains[1..], id)
  }

  /** `find` returns the train at the first index carrying the id. */
  lemma {:induction false} FindIsFirst(trains: seq<Train>, id: string)
    ensures FirstWithId(trains, id) < |trains| ==> Find(trains, id) == Some(trains[FirstWithId(trains, id)])
  {
    if trains != [] && trains[0].id != id {
      FindIsFirst(trains[1..], id);
    }
  }

  /** The update object built for one affected train, from that train's values. */
  function PatchFor(kind: RecommendationType, train: Train): TrainPatch
  {
    match kind
    case Reroute => StatusDelaySpeedPatch(Delayed, Some(MaxInt(0, train.delay + 5)), None)
    case Delay => StatusDelaySpeedPatch(Delayed, Some(train.delay + 10), Some(MaxInt(20, train.speed - 15)))
    case Priority => StatusDelaySpeedPatch(OnTime, Some(MaxInt(0, train.delay - 5)), Some(MinInt(120, train.speed + 10)))
    case MaintenanceStop => StatusDelaySpeedPatch(Maintenance, None, Some(0))
    case EmergencyStop => StatusDelaySpeedPatch(Emergency, None, Some(0))
  }

  /** A train after its own per-type update: only status, delay and speed change, within the type's clamps. */
  function Changed(kind: RecommendationType, train: Train): (r: Train)
    ensures r == train.(status := r.status, delay := r.delay, speed := r.speed)
    ensures kind == Reroute ==>
              r.status == Delayed && r.speed == train.speed
              && r.delay >= 0 && r.delay >= train.delay + 5 && (r.delay == 0 || r.delay == train.delay + 5)
    ensures kind == Delay ==>
              r.status == Delayed && r.delay == train.delay + 10
              && r.speed >= 20 && r.speed >= train.speed - 15 && (r.speed == 20 || r.speed == train.speed - 15)
    ensures kind == Priority ==>
              r.status == OnTime
              && r.delay >= 0 && r.delay >= train.delay - 5 && (r.delay == 0 || r.delay == train.delay - 5)
              && r.speed <= 120 && r.speed <= train.speed + 10 && (r.speed == 120 || r.speed == train.speed + 10)
    ensures kind == MaintenanceStop ==> r.status == Maintenance && r.speed == 0 && r.delay == train.delay
    ensures kind == EmergencyStop ==> r.status == Emergency && r.speed == 0 && r.delay == train.delay
  {
    OverlayTrain(train, PatchFor(kind, train))
  }

  /** `recommendation.affectedTrains || []` */
  function AffectedIds(recommendation: Recommendation): (ids: seq<string>)
    ensures recommendation.affectedTrains.None? ==> ids == []
    ensures recommendation.affectedTrains.Some? ==> ids == recommendation.affectedTrains.value
  {
    Or(recommendation.affectedTrains, [])
  }

  /** The store's trains after one pass of the loop: `updateTrain` for `id` when `snapshot` has a train with it. */
  function ApplyId(current: seq<Train>, snapshot: seq<Train>, kind: RecommendationType, id: string): (r: seq<Train>)
    ensures |r| == |current|
    ensures forall j :: 0 <= j < |current| ==>
              r[j] == if current[j].id == id && Find(snapshot, id).Some?
                      then OverlayTrain(current[j], PatchFor(kind, Find(snapshot, id).value))
                      else current[j]
  {
    match Find(snapshot, id)
    case None => current
    case Some(t) => Store.UpdatedTrains(current, id, PatchFor(kind, t))
  }

  /** The store's trains after the loop has handled `ids`, one pass per id. */
  function ApplyIds(current: seq<Train>, snapshot: seq<Train>, kind: RecommendationType, ids: seq<string>): (r: seq<Train>)
    ensures |r| == |current|
    decreases |ids|
  {
    if ids == [] then current
    else ApplyId(ApplyIds(current, snapshot, kind, ids[..|ids| - 1]), snapshot, kind, ids[|ids| - 1])
  }

  /** Where one train ends up: updated once, from the snapshot's first train with its id, when that id is listed and found. */
  function ReferenceTrain(t: Train, snapshot: seq<Train>, kind: RecommendationType, ids: seq<string>): Train
  {
    if t.id in ids && Find(snapshot, t.id).Some?
    then OverlayTrain(t, PatchFor(kind, Find(snapshot, t.id).value))
    else t
  }

  /** The effect of the whole loop, train by train. */
  function Reference(current: seq<Train>, snapshot: seq<Train>, kind: RecommendationType, ids: seq<string>): (r: seq<Train>)
    ensures |r| == |current|
  {
    seq(|current|, j requires 0 <= j < |current| => ReferenceTrain(current[j], snapshot, kind, ids))
  }

  /** Handling one more id moves a train from its reference position for `init` to that for `init + [id]`. */
  lemma ReferenceTrainStep(t: Train, snapshot: seq<Train>, kind: RecommendationType, init: seq<string>, id: string)
    ensures Find(snapshot, id).None? ==>
              ReferenceTrain(t, snapshot, kind, init + [id]) == ReferenceTrain(t, snapshot, kind, init)
    ensures Find(snapshot, id).Some? ==>
              var before := ReferenceTrain(t, snapshot, kind, init);
              (if before.id == id then OverlayTrain(before, PatchFor(kind, Find(snapshot, id).value)) else before)
              == ReferenceTrain(t, snapshot, kind, init + [id])
  {
    assert forall x :: x in init + [id] <==> x in init || x == id;
    if t.id in init && Find(snapshot, t.id).Some? {
      OverlayPatchForTwice(t, kind, Find(snapshot, t.id).value);
    }
  }

  /** Overlaying one update object twice is overlaying it once, and it keeps the train's id. */
  lemma OverlayPatchForTwice(t: Train, kind: RecommendationType, source: Train)
    ensures OverlayTrain(t, PatchFor(kind, source)).id == t.id
    ensures OverlayTrain(OverlayTrain(t, PatchFor(kind, source)), PatchFor(kind, source))
            == OverlayTrain(t, PatchFor(kind, source))
  {
  }

  /**
   * The loop agrees with the train-by-train reference: unlisted trains and ids missing
   * from the snapshot change nothing, and an id listed twice does not compound.
   */
  lemma {:induction false} ApplyIdsIsReference(current: seq<Train>, snapshot: seq<Train>, kind: RecommendationType, ids: seq<string>)
    ensures ApplyIds(current, snapshot, kind, ids) == Reference(current, snapshot, kind, ids)
    decreases |ids|
  {
    if ids != [] {
      var init := ids[..|ids| - 1];
      var id := ids[|ids| - 1];
      assert ids == init + [id];
      ApplyIdsIsReference(current, snapshot, kind, init);
      var before := Reference(current, snapshot, kind, init);
      var after := Reference(current, snapshot, kind, ids);
      var r := ApplyIds(current, snapshot, kind, ids);
      forall j | 0 <= j < |current|
        ensures r[j] == after[j]
      {
        ReferenceTrainStep(current[j], snapshot, kind, init, id);
      }
    }
  }

  /**
   * When the component's list is the store's list and train `j` is the first with its
   * id, a listed train ends up exactly as `Changed` describes.
   */
  lemma ListedTrainChanged(trains: seq<Train>, kind: RecommendationType, ids: seq<string>, j: nat)
    requires j < |trains| && trains[j].id in ids
    requires FirstWithId(trains, trains[j].id) == j
    ensures ApplyIds(trains, trains, kind, ids)[j] == Changed(kind, trains[j])
  {
    ApplyIdsIsReference(trains, trains, kind, ids);
    FindIsFirst(trains, trains[j].id);
  }

  /** A train whose id is not listed is untouched. */
  lemma UnlistedTrainUnchanged(current: seq<Train>, snapshot: seq<Train>, kind: RecommendationType, ids: seq<string>, j: nat)
    requires j < |current| && current[j].id !in ids
    ensures ApplyIds(current, snapshot, kind, ids)[j] == current[j]
  {
    ApplyIdsIsReference(current, snapshot, kind, ids);
  }

  /** An id the snapshot does not contain changes nothing. */
  lemma UnknownIdSkipped(current: seq<Train>, snapshot: seq<Train>, kind: RecommendationType, ids: seq<string>, id: string)
    requires forall i :: 0 <= i < |snapshot| ==> snapshot[i].id != id
    ensures ApplyIds(current, snapshot, kind, ids + [id]) == ApplyIds(current, snapshot, kind, ids)
  {
    assert (ids + [id])[..|ids|] == ids;
  }

  /** Listing an id a second time changes nothing: values come from the snapshot, so updates do not compound. */
  lemma RepeatedIdDoesNotCompound(current: seq<Train>, snapshot: seq<Train>, kind: RecommendationType, ids: seq<string>, id: string)
    requires id in ids
    ensures ApplyIds(current, snapshot, kind, ids + [id]) == ApplyIds(current, snapshot, kind, ids)
  {
    ApplyIdsIsReference(current, snapshot, kind, ids);
    ApplyIdsIsReference(current, snapshot, kind, ids + [id]);
    assert forall x :: x in ids + [id] <==> x in ids;
    var a := Reference(current, snapshot, kind, ids + [id]);
    var b := Reference(current, snapshot, kind, ids);
    assert forall j :: 0 <= j < |current| ==> a[j] == b[j];
  }

  /** The `forEach` callback: looks the id up in the component's list and updates the store's train from it. */
  method ApplyToTrain(store: Store.TrainStore, trains: seq<Train>, kind: RecommendationType, trainId: string)
    modifies store
    ensures store.Snapshot() == old(store.Snapshot()).(trains := ApplyId(old(store.trains), trains, kind, trainId))
  {
    var train := Find(trains, trainId);
    if train.Some? {
      store.UpdateTrain(trainId, PatchFor(kind, train.value));
    }
  }

  /** `applyRecommendationChanges(recommendation)`, with `trains` the component's copy of the store's list. */
  method ApplyRecommendationChanges(store: Store.TrainStore, trains: seq<Train>, recommendation: Recommendation)
    modifies store
    ensures store.Snapshot() == old(store.Snapshot()).(trains :=
              ApplyIds(old(store.trains), trains, recommendation.kind, AffectedIds(recommendation)))
  {
    var affectedTrainIds := AffectedIds(recommendation);
    var i := 0;
    while i < |affectedTrainIds|
      invariant 0 <= i <= |affectedTrainIds|
      invariant store.Snapshot()
                == old(store.Snapshot()).(trains := ApplyIds(old(store.trains), trains, recommendation.kind, affectedTrainIds[..i]))
    {
      assert affectedTrainIds[..i + 1][..i] == affectedTrainIds[..i];
      ApplyToTrain(store, trains, recommendation.kind, affectedTrainIds[i]);
      i := i + 1;
    }
    assert affectedTrainIds[..i] == affectedTrainIds;
  }
}

=== FILE: seqs.dfy ===
/** Sequence helpers standing for JavaScript's `filter(...)` and `filter(...).length`. */
module Seqs {

  /** The elements of `s` that satisfy `p`, in their original order. */
  function Filter<T>(s: seq<T>, p: T -> bool): (r: seq<T>)
    ensures |r| <= |s|
    ensures forall i :: 0 <= i < |r| ==> r[i] in s && p(r[i])
    ensures forall i :: 0 <= i < |s| && p(s[i]) ==> s[i] in r
  {
    if s == [] then [] else (if p(s[0]) then [s[0]] else []) + Filter(s[1..], p)
  }

  /** `s.filter(p).length` */
  function Count<T>(s: seq<T>, p: T -> bool): nat
  {
    |Filter(s, p)|
  }

  /** Counting peels off the first element. */
  lemma CountCons<T>(s: seq<T>, p: T -> bool)
    requires |s| > 0
    ensures Count(s, p) == (if p(s[0]) then 1 else 0) + Count(s[1..], p)
  {
  }

  /** Filtering distributes over concatenation, so the relative order of the kept elements is the original one. */
  lemma {:induction false} FilterAppend<T>(a: seq<T>, b: seq<T>, p: T -> bool)
    ensures Filter(a + b, p) == Filter(a, p) + Filter(b, p)
  {
    if a == [] {
      assert a + b == b;
    } else {
      assert (a + b)[1..] == a[1..] + b;
      FilterAppend(a[1..], b, p);
    }
  }

  /** A filter whose predicate holds everywhere keeps the whole sequence. */
  lemma {:induction false} FilterAll<T>(s: seq<T>, p: T -> bool)
    requires forall i :: 0 <= i < |s| ==> p(s[i])
    ensures Filter(s, p) == s
  {
    if s != [] {
      FilterAll(s[1..], p);
    }
  }

  /** A filter whose predicate holds nowhere keeps nothing. */
  lemma {:induction false} FilterNone<T>(s: seq<T>, p: T -> bool)
    requires forall i :: 0 <= i < |s| ==> !p(s[i])
    ensures Filter(s, p) == []
  {
    if s != [] {
      FilterNone(s[1..], p);
    }
  }

  /** Two predicates that never agree on an element and never both fail split `s`: their counts add up to `|s|`. */
  lemma {:induction false} CountComplement<T>(s: seq<T>, p: T -> bool, q: T -> bool)
    requires forall i :: 0 <= i < |s| ==> p(s[i]) != q(s[i])
    ensures Count(s, p) + Count(s, q) == |s|
  {
    if s != [] {
      CountComplement(s[1..], p, q);
    }
  }

  /** Counts of predicates that are pairwise exclusive on `s` add up to at most `|s|`. */
  lemma {:induction false} CountExclusive3<T>(s: seq<T>, p: T -> bool, q: T -> bool, r: T -> bool)
    requires forall i :: 0 <= i < |s| ==> !(p(s[i]) && q(s[i])) && !(p(s[i]) && r(s[i])) && !(q(s[i]) && r(s[i]))
    ensures Count(s, p) + Count(s, q) + Count(s, r) <= |s|
  {
    if s != [] {
      CountExclusive3(s[1..], p, q, r);
    }
  }

  /** Counts of predicates such that every element satisfies exactly one of them add up to `|s|`. */
  lemma {:induction false} CountPartition3<T>(s: seq<T>, p: T -> bool, q: T -> bool, r: T -> bool)
    requires forall i :: 0 <= i < |s| ==> (if p(s[i]) then 1 else 0) + (if q(s[i]) then 1 else 0) + (if r(s[i]) then 1 else 0) == 1
    ensures Count(s, p) + Count(s, q) + Count(s, r) == |s|
  {
    if s != [] {
      CountPartition3(s[1..], p, q, r);
    }
  }

  /** Every element is counted exactly when the predicate holds throughout. */
  lemma {:induction false} CountFull<T>(s: seq<T>, p: T -> bool)
    ensures Count(s, p) == |s| <==> forall i :: 0 <= i < |s| ==> p(s[i])
  {
    if s != [] {
      CountFull(s[1..], p);
      assert forall i :: 1 <= i < |s| ==> s[i] == s[1..][i - 1];
    }
  }

  /** Nothing is counted exactly when the predicate holds nowhere. */
  lemma CountZero<T>(s: seq<T>, p: T -> bool)
    ensures Count(s, p) == 0 <==> forall i :: 0 <= i < |s| ==> !p(s[i])
  {
    if i :| 0 <= i < |s| && p(s[i]) {
      assert s[i] in Filter(s, p);
    } else {
      FilterNone(s, p);
    }
  }

  /** `s.map(x => hit(x) ? f(x) : x)`: `f` applied to the elements `hit` selects, all others kept. */
  function MapWhere<T>(s: seq<T>, hit: T -> bool, f: T -> T): (r: seq<T>)
    ensures |r| == |s|
    ensures forall i :: 0 <= i < |s| ==> r[i] == if hit(s[i]) then f(s[i]) else s[i]
  {
    if s == [] then [] else [if hit(s[0]) then f(s[0]) else s[0]] + MapWhere(s[1..], hit, f)
  }

  /** `s.slice(0, n)` for a non-negative `n`: the first `n` elements, or all of them when there are fewer. */
  function Take<T>(s: seq<T>, n: nat): (r: seq<T>)
    ensures |r| == if |s| < n then |s| else n
    ensures r == s[..|r|]
  {
    if |s| <= n then s else s[..n]
  }
}

=== FILE: signaling.dfy ===
/**
 * The signal-aspect rules and the line state of the interactive railway
 * signaling view (components/RailwaySignaling.tsx): the aspect of a home or
 * intermediate signal, the aspect of a distant signal, the placement of the
 * signals along the line, the re-evaluation of every signal, and the one-tick
 * movement of the trains. Kilometre positions and speeds are exact reals.
 */
module Signaling {
  import opened Types
  import opened Seqs
  import Text

  datatype Aspect = Green | Yellow | Red

  datatype SignalKind = Home | Distant | Intermediate

  datatype Signal = Signal(id: string, position: real, state: Aspect, kind: SignalKind)

  datatype SectionStatus = Clear | Occupied | Caution | Blocked

  datatype TrackSection = TrackSection(id: string, from: string, to: string, startKm: real,
                                       endKm: real, status: SectionStatus, maxSpeed: int)

  datatype LineStation = LineStation(id: string, name: string, code: string, km: real, platforms: int)

  /** 'down' runs towards increasing kilometre posts, 'up' towards decreasing ones. */
  datatype Direction = Up | Down

  datatype LineTrain = LineTrain(id: string, name: string, route: string, km: real, speed: real,
                                 delay: int, direction: Direction, status: TrainStatus)

  datatype LineData = LineData(stations: seq<LineStation>, sections: seq<TrackSection>, trains: seq<LineTrain>)

  /** Length of the line in km; positions are clamped to [0, LineEndKm]. */
  const LineEndKm: real := 100.0

  /** Intermediate signals are considered at every 10 km strictly below this km. */
  function IntermediateLimit(): int { 100 }

  function Abs(x: real): real
  {
    if x < 0.0 then -x else x
  }

  /** A train closer than 2 km (strictly) to `position` and moving (speed > 0). */
  predicate NearAndMoving(t: LineTrain, position: real)
  {
    Abs(t.km - position) < 2.0 && t.speed > 0.0
  }

  /** The `nearbyTrains` filter. */
  function NearbyTrains(position: real, trains: seq<LineTrain>): seq<LineTrain>
  {
    Filter(trains, (t: LineTrain) => NearAndMoving(t, position))
  }

  predicate AnyNearAndMoving(position: real, trains: seq<LineTrain>)
  {
    exists i :: 0 <= i < |trains| && NearAndMoving(trains[i], position)
  }

  /** A section contains a position between its bounds, both inclusive. */
  predicate Contains(s: TrackSection, position: real)
  {
    position >= s.startKm && position <= s.endKm
  }

  /** The index of the first section, in list order, that contains `position` (`sections.find`). */
  function FirstContaining(sections: seq<TrackSection>, position: real): (r: Option<nat>)
    ensures r.Some? ==> r.value < |sections| && Contains(sections[r.value], position)
    ensures r.Some? ==> forall j :: 0 <= j < r.value ==> !Contains(sections[j], position)
    ensures r.None? ==> forall j :: 0 <= j < |sections| ==> !Contains(sections[j], position)
  {
    if sections == [] then None
    else if Contains(sections[0], position) then Some(0)
    else match FirstContaining(sections[1..], position)
      case None => None
      case Some(i) => Some(i + 1)
  }

  /** The status of the section found for `position`, if any. */
  function FoundStatus(position: real, sections: seq<TrackSection>): Option<SectionStatus>
  {
    match FirstContaining(sections, position)
    case None => None
    case Some(i) => Some(sections[i].status)
  }

  /**
   * `getSignalState`: red when a moving train is within 2 km; otherwise the
   * first section containing the position decides (occupied: red, caution:
   * yellow); otherwise green.
   */
  function SignalState(position: real, trains: seq<LineTrain>, sections: seq<TrackSection>): (r: Aspect)
    ensures r == Red <==> AnyNearAndMoving(position, trains) || FoundStatus(position, sections) == Some(Occupied)
    ensures r == Yellow <==> !AnyNearAndMoving(position, trains) && FoundStatus(position, sections) == Some(Caution)
  {
    var nearby := NearbyTrains(position, trains);
    assert AnyNearAndMoving(position, trains) <==> |nearby| > 0 by {
      if AnyNearAndMoving(position, trains) {
        var i :| 0 <= i < |trains| && NearAndMoving(trains[i], position);
        assert trains[i] in nearby;
      }
      if |nearby| > 0 {
        assert nearby[0] in trains;
        var i :| 0 <= i < |trains| && trains[i] == nearby[0];
      }
    }
    if |nearby| > 0 then Red
    else
      var section := FoundStatus(position, sections);
      if section == Some(Occupied) then Red
      else if section == Some(Caution) then Yellow
      else Green
  }

  /** `getDistantSignalState`: the home aspect at the station, lowered one step so it is never red. */
  function DistantSignalState(stationKm: real, trains: seq<LineTrain>, sections: seq<TrackSection>): (r: Aspect)
    ensures r != Red
    ensures r == Yellow <==> SignalState(stationKm, trains, sections) != Green
  {
    var home := SignalState(stationKm, trains, sections);
    if home == Red then Yellow
    else if home == Yellow then Yellow
    else Green
  }

  /** A moving train within 2 km gives red, whatever the sections say. */
  lemma ProximityForcesRed(position: real, trains: seq<LineTrain>, sections: seq<TrackSection>, i: nat)
    requires i < |trains| && Abs(trains[i].km - position) < 2.0 && trains[i].speed > 0.0
    ensures SignalState(position, trains, sections) == Red
  {
  }

  /**
   * A train that is stopped, or at least 2 km away, never changes the aspect:
   * adding it to the list leaves every signal as it was.
   */
  lemma IgnoredTrainChangesNothing(position: real, trains: seq<LineTrain>, t: LineTrain, sections: seq<TrackSection>)
    requires t.speed <= 0.0 || Abs(t.km - position) >= 2.0
    ensures SignalState(position, trains + [t], sections) == SignalState(position, trains, sections)
  {
    assert AnyNearAndMoving(position, trains + [t]) == AnyNearAndMoving(position, trains) by {
      if AnyNearAndMoving(position, trains + [t]) {
        var i :| 0 <= i < |trains + [t]| && NearAndMoving((trains + [t])[i], position);
        assert i < |trains| && NearAndMoving(trains[i], position);
      }
      if AnyNearAndMoving(position, trains) {
        var i :| 0 <= i < |trains| && NearAndMoving(trains[i], position);
        assert (trains + [t])[i] == trains[i];
      }
    }
  }

  /**
   * With no moving train nearby, the first containing section decides:
   * occupied gives red, caution yellow, clear or blocked green.
   */
  lemma SectionDecides(position: real, trains: seq<LineTrain>, sections: seq<TrackSection>, i: nat)
    requires forall k :: 0 <= k < |trains| ==> !NearAndMoving(trains[k], position)
    requires i < |sections| && Contains(sections[i], position)
    requires forall j :: 0 <= j < i ==> !Contains(sections[j], position)
    ensures sections[i].status == Occupied ==> SignalState(position, trains, sections) == Red
    ensures sections[i].status == Caution ==> SignalState(position, trains, sections) == Yellow
    ensures sections[i].status in {Clear, Blocked} ==> SignalState(position, trains, sections) == Green
  {
    assert FirstContaining(sections, position) == Some(i);
  }

  /** With no moving train nearby and no section containing the position, the aspect is green. */
  lemma NoSectionGreen(position: real, trains: seq<LineTrain>, sections: seq<TrackSection>)
    requires forall k :: 0 <= k < |trains| ==> !NearAndMoving(trains[k], position)
    requires forall j :: 0 <= j < |sections| ==> !Contains(sections[j], position)
    ensures SignalState(position, trains, sections) == Green
  {
  }

  /** Aspects ordered by restrictiveness. */
  function Rank(a: Aspect): nat
  {
    match a
    case Green => 0
    case Yellow => 1
    case Red => 2
  }

  /** A distant aspect is at most one step less restrictive than the home aspect, and never more restrictive. */
  lemma DistantLowersByOneStep(stationKm: real, trains: seq<LineTrain>, sections: seq<TrackSection>)
    ensures Rank(DistantSignalState(stationKm, trains, sections)) <= Rank(SignalState(stationKm, trains, sections))
    ensures Rank(SignalState(stationKm, trains, sections)) <= Rank(DistantSignalState(stationKm, trains, sections)) + 1
  {
  }

  /** One signal re-evaluated as in `updateSignals`: a distant signal reads the home aspect 1 km ahead. */
  function Evaluate(s: Signal, trains: seq<LineTrain>, sections: seq<TrackSection>): Signal
  {
    s.(state := if s.kind == Distant then DistantSignalState(s.position + 1.0, trains, sections)
                else SignalState(s.position, trains, sections))
  }

  /** `prevSignals.map(...)`: every signal re-evaluated in place, nothing but `state` changed. */
  function EvaluateAll(signals: seq<Signal>, trains: seq<LineTrain>, sections: seq<TrackSection>): (r: seq<Signal>)
    ensures |r| == |signals|
    ensures forall i :: 0 <= i < |r| ==>
      r[i].id == signals[i].id && r[i].position == signals[i].position && r[i].kind == signals[i].kind
    ensures forall i :: 0 <= i < |r| && r[i].kind == Distant ==> r[i].state != Red
    ensures forall i :: 0 <= i < |r| ==>
      r[i].state == if signals[i].kind == Distant then DistantSignalState(signals[i].position + 1.0, trains, sections)
                    else SignalState(signals[i].position, trains, sections)
  {
    seq(|signals|, i requires 0 <= i < |signals| => Evaluate(signals[i], trains, sections))
  }

  /** Re-evaluating twice against the same trains and sections gives the same list as once. */
  lemma EvaluateAllIdempotent(signals: seq<Signal>, trains: seq<LineTrain>, sections: seq<TrackSection>)
    ensures EvaluateAll(EvaluateAll(signals, trains, sections), trains, sections) == EvaluateAll(signals, trains, sections)
  {
    var once := EvaluateAll(signals, trains, sections);
    var twice := EvaluateAll(once, trains, sections);
    forall i | 0 <= i < |twice|
      ensures twice[i] == once[i]
    {
      assert once[i].kind == signals[i].kind && once[i].position == signals[i].position;
      assert twice[i].state == once[i].state;
    }
  }

  /** The signals placed for one station: a home signal at its km, and a distant signal 1 km before a major station. */
  function StationSignals(st: LineStation, trains: seq<LineTrain>, sections: seq<TrackSection>): seq<Signal>
  {
    [Signal(st.code + "-HOME", st.km, SignalState(st.km, trains, sections), Home)]
    + (if st.platforms > 2 && st.km > 1.0
       then [Signal(st.code + "-DIST", st.km - 1.0, DistantSignalState(st.km, trains, sections), Distant)]
       else [])
  }

  /** The signals placed for the stations, in station order. */
  function StationsSignals(stations: seq<LineStation>, trains: seq<LineTrain>, sections: seq<TrackSection>): seq<Signal>
  {
    if stations == [] then []
    else StationsSignals(stations[..|stations| - 1], trains, sections)
         + StationSignals(stations[|stations| - 1], trains, sections)
  }

  /** `data.stations.some(s => Math.abs(s.km - km) < 2)` */
  predicate StationNear(stations: seq<LineStation>, km: real)
  {
    exists i :: 0 <= i < |stations| && Abs(stations[i].km - km) < 2.0
  }

  /** The intermediate signal at `km`, if no station lies within 2 km of it. */
  function IntermediateSignalAt(km: int, stations: seq<LineStation>, trains: seq<LineTrain>,
                                sections: seq<TrackSection>): seq<Signal>
  {
    if StationNear(stations, km as real) then []
    else [Signal("INT-" + Text.IntToString(km), km as real, SignalState(km as real, trains, sections), Intermediate)]
  }

  /** The intermediate signals for km = 10, 20, ... strictly below `upTo`, in increasing order. */
  function IntermediateSignals(upTo: int, stations: seq<LineStation>, trains: seq<LineTrain>,
                               sections: seq<TrackSection>): seq<Signal>
    decreases upTo
  {
    if upTo <= 10 then []
    else IntermediateSignals(upTo - 10, stations, trains, sections)
         + IntermediateSignalAt(upTo - 10, stations, trains, sections)
  }

  lemma IntermediateSignalsStep(km: int, stations: seq<LineStation>, trains: seq<LineTrain>, sections: seq<TrackSection>)
    requires km >= 10
    ensures IntermediateSignals(km + 10, stations, trains, sections)
            == IntermediateSignals(km, stations, trains, sections) + IntermediateSignalAt(km, stations, trains, sections)
  {
  }

  /** What the placement loop builds for a line. */
  function Placement(data: LineData): seq<Signal>
  {
    StationsSignals(data.stations, data.trains, data.sections)
    + IntermediateSignals(IntermediateLimit(), data.stations, data.trains, data.sections)
  }

  /** The placement loop: home and distant signals per station, then intermediate signals every 10 km. */
  method GenerateSignals(data: LineData) returns (generated: seq<Signal>)
    ensures generated == Placement(data)
  {
    generated := PlaceStationSignals(data.stations, data.trains, data.sections);
    generated := PlaceIntermediateSignals(generated, data.stations, data.trains, data.sections);
  }

  /** `data.stations.forEach(...)`: push each station's home signal and, for a major station, its distant signal. */
  method PlaceStationSignals(stations: seq<LineStation>, trains: seq<LineTrain>, sections: seq<TrackSection>)
    returns (generated: seq<Signal>)
    ensures generated == StationsSignals(stations, trains, sections)
  {
    generated := [];
    var i := 0;
    while i < |stations|
      invariant 0 <= i <= |stations|
      invariant generated == StationsSignals(stations[..i], trains, sections)
    {
      var station := stations[i];
      generated := generated + [Signal(station.code + "-HOME", station.km,
                                       SignalState(station.km, trains, sections), Home)];
      if station.platforms > 2 && station.km > 1.0 {
        generated := generated + [Signal(station.code + "-DIST", station.km - 1.0,
                                         DistantSignalState(station.km, trains, sections), Distant)];
      }
      assert stations[..i + 1][..i] == stations[..i];
      i := i + 1;
    }
    assert stations[..i] == stations;
  }

  /** `for (let km = 10; km < 100; km += 10)`: push an intermediate signal where no station is within 2 km. */
  method PlaceIntermediateSignals(prefix: seq<Signal>, stations: seq<LineStation>, trains: seq<LineTrain>,
                                  sections: seq<TrackSection>) returns (generated: seq<Signal>)
    ensures generated == prefix + IntermediateSignals(IntermediateLimit(), stations, trains, sections)
  {
    generated := prefix;
    var km := 10;
    ghost var slot := 1;
    while km < IntermediateLimit()
      invariant 1 <= slot <= 10 && km == 10 * slot
      invariant generated == prefix + IntermediateSignals(km, stations, trains, sections)
    {
      PlacedThrough(prefix, km, stations, trains, sections);
      if !StationNear(stations, km as real) {
        var signal := Signal("INT-" + Text.IntToString(km), km as real, SignalState(km as real, trains, sections), Intermediate);
        assert [signal] == IntermediateSignalAt(km, stations, trains, sections);
        generated := generated + [signal];
      } else {
        assert IntermediateSignalAt(km, stations, trains, sections) == [];
      }
      km, slot := km + 10, slot + 1;
    }
  }

  /** Pushing the slot at `km` after the signals placed below `km` gives the signals placed below `km + 10`. */
  lemma PlacedThrough(prefix: seq<Signal>, km: int, stations: seq<LineStation>, trains: seq<LineTrain>, sections: seq<TrackSection>)
    requires km >= 10
    ensures prefix + IntermediateSignals(km, stations, trains, sections) + IntermediateSignalAt(km, stations, trains, sections)
            == prefix + IntermediateSignals(km + 10, stations, trains, sections)
  {
    IntermediateSignalsStep(km, stations, trains, sections);
  }

  /** Every signal already shows the aspect `updateSignals` would compute for it. */
  ghost predicate Settled(signals: seq<Signal>, trains: seq<LineTrain>, sections: seq<TrackSection>)
  {
    forall i :: 0 <= i < |signals| ==> Evaluate(signals[i], trains, sections) == signals[i]
  }

  /** Re-evaluating settled signals changes nothing. */
  lemma SettledIsFixedPoint(signals: seq<Signal>, trains: seq<LineTrain>, sections: seq<TrackSection>)
    requires Settled(signals, trains, sections)
    ensures EvaluateAll(signals, trains, sections) == signals
  {
  }

  lemma {:induction false} StationsSignalsSettled(stations: seq<LineStation>, trains: seq<LineTrain>, sections: seq<TrackSection>)
    ensures Settled(StationsSignals(stations, trains, sections), trains, sections)
  {
    if stations != [] {
      StationsSignalsSettled(stations[..|stations| - 1], trains, sections);
      var st := stations[|stations| - 1];
      assert st.km - 1.0 + 1.0 == st.km;
      assert Settled(StationSignals(st, trains, sections), trains, sections);
    }
  }

  lemma {:induction false} IntermediateSignalsSettled(upTo: int, stations: seq<LineStation>, trains: seq<LineTrain>, sections: seq<TrackSection>)
    ensures Settled(IntermediateSignals(upTo, stations, trains, sections), trains, sections)
    decreases upTo
  {
    if upTo > 10 {
      IntermediateSignalsSettled(upTo - 10, stations, trains, sections);
      assert Settled(IntermediateSignalAt(upTo - 10, stations, trains, sections), trains, sections);
    }
  }

  /**
   * Re-evaluating freshly placed signals against the same trains and sections
   * changes nothing: a distant signal placed at km - 1 from the station's home
   * aspect is re-evaluated at (km - 1) + 1, the same station km.
   */
  lemma UpdateAgreesWithPlacement(data: LineData)
    ensures EvaluateAll(Placement(data), data.trains, data.sections) == Placement(data)
  {
    StationsSignalsSettled(data.stations, data.trains, data.sections);
    IntermediateSignalsSettled(IntermediateLimit(), data.stations, data.trains, data.sections);
    SettledIsFixedPoint(Placement(data), data.trains, data.sections);
  }

  /** Every station gets a home signal at its km, showing the home aspect there. */
  lemma {:induction false} HomeSignalAtEachStation(stations: seq<LineStation>, trains: seq<LineTrain>, sections: seq<TrackSection>, i: nat)
    requires i < |stations|
    ensures Signal(stations[i].code + "-HOME", stations[i].km, SignalState(stations[i].km, trains, sections), Home)
            in StationsSignals(stations, trains, sections)
  {
    var init := stations[..|stations| - 1];
    var home := Signal(stations[i].code + "-HOME", stations[i].km, SignalState(stations[i].km, trains, sections), Home);
    var head := StationsSignals(init, trains, sections);
    var last := StationSignals(stations[|stations| - 1], trains, sections);
    assert StationsSignals(stations, trains, sections) == head + last;
    if i < |stations| - 1 {
      HomeSignalAtEachStation(init, trains, sections, i);
      assert init[i] == stations[i];
      assert home in head;
    } else {
      assert last[0] == home;
    }
  }

  /**
   * A station with more than 2 platforms beyond km 1 gets a distant signal at km - 1, showing the
   * lowered home aspect. The converse, that every placed distant signal has such a station, is
   * StationSignalsSound.
   */
  lemma {:induction false} DistantSignalRule(stations: seq<LineStation>, trains: seq<LineTrain>, sections: seq<TrackSection>, i: nat)
    requires i < |stations|
    ensures stations[i].platforms > 2 && stations[i].km > 1.0 ==>
      Signal(stations[i].code + "-DIST", stations[i].km - 1.0, DistantSignalState(stations[i].km, trains, sections), Distant)
        in StationsSignals(stations, trains, sections)
  {
    var init := stations[..|stations| - 1];
    var distant := Signal(stations[i].code + "-DIST", stations[i].km - 1.0, DistantSignalState(stations[i].km, trains, sections), Distant);
    var head := StationsSignals(init, trains, sections);
    var last := StationSignals(stations[|stations| - 1], trains, sections);
    assert StationsSignals(stations, trains, sections) == head + last;
    if stations[i].platforms > 2 && stations[i].km > 1.0 {
      if i < |stations| - 1 {
        DistantSignalRule(init, trains, sections, i);
        assert init[i] == stations[i];
        assert distant in head;
      } else {
        assert last[1] == distant;
      }
    }
  }

  /**
   * Every distant signal placed for the stations stands 1 km before a station
   * that has more than 2 platforms and lies beyond km 1; every other station
   * signal is a home signal at a station's km.
   */
  lemma {:induction false} StationSignalsSound(stations: seq<LineStation>, trains: seq<LineTrain>, sections: seq<TrackSection>, j: nat)
    requires j < |StationsSignals(stations, trains, sections)|
    ensures var s := StationsSignals(stations, trains, sections)[j];
      exists i :: 0 <= i < |stations| &&
        if s.kind == Distant
        then s.position == stations[i].km - 1.0 && stations[i].platforms > 2 && stations[i].km > 1.0
        else s.kind == Home && s.position == stations[i].km
  {
    var init := stations[..|stations| - 1];
    var head := StationsSignals(init, trains, sections);
    var last := stations[|stations| - 1];
    var s := StationsSignals(stations, trains, sections)[j];
    if j < |head| {
      StationSignalsSound(init, trains, sections, j);
      var i :| 0 <= i < |init| &&
        if head[j].kind == Distant
        then head[j].position == init[i].km - 1.0 && init[i].platforms > 2 && init[i].km > 1.0
        else head[j].kind == Home && head[j].position == init[i].km;
      assert init[i] == stations[i];
    } else {
      assert s in StationSignals(last, trains, sections);
      assert stations[|stations| - 1] == last;
    }
  }

  /** Some intermediate signal in the list stands at `km`. */
  ghost predicate HasIntermediateAt(signals: seq<Signal>, km: real)
  {
    exists j :: 0 <= j < |signals| && signals[j].kind == Intermediate && signals[j].position == km
  }

  lemma HasIntermediateAtAppend(a: seq<Signal>, b: seq<Signal>, km: real)
    ensures HasIntermediateAt(a + b, km) <==> HasIntermediateAt(a, km) || HasIntermediateAt(b, km)
  {
    if HasIntermediateAt(a + b, km) {
      var j :| 0 <= j < |a + b| && (a + b)[j].kind == Intermediate && (a + b)[j].position == km;
      if j >= |a| {
        assert b[j - |a|].kind == Intermediate && b[j - |a|].position == km;
      }
    }
    if HasIntermediateAt(b, km) {
      var j :| 0 <= j < |b| && b[j].kind == Intermediate && b[j].position == km;
      assert (a + b)[|a| + j].kind == Intermediate && (a + b)[|a| + j].position == km;
    }
    if HasIntermediateAt(a, km) {
      var j :| 0 <= j < |a| && a[j].kind == Intermediate && a[j].position == km;
      assert (a + b)[j].kind == Intermediate && (a + b)[j].position == km;
    }
  }

  /**
   * Among the intermediate signals below `upTo`, one stands at a slot `km` of the
   * loop (a positive km a whole number of 10 km steps below `upTo`) exactly when
   * no station lies within 2 km of it.
   */
  lemma {:induction false} IntermediateSignalRule(upTo: int, stations: seq<LineStation>, trains: seq<LineTrain>, sections: seq<TrackSection>, km: int, steps: nat)
    requires 0 < km && steps >= 1 && km == upTo - 10 * steps
    ensures HasIntermediateAt(IntermediateSignals(upTo, stations, trains, sections), km as real)
            <==> !StationNear(stations, km as real)
    decreases steps
  {
    if steps > 1 {
      IntermediateSignalRule(upTo - 10, stations, trains, sections, km, steps - 1);
      EarlierSlotKept(upTo, stations, trains, sections, km);
    } else {
      LastSlotRule(upTo, stations, trains, sections, km);
    }
  }

  /** A slot below the last one is found among the signals below `upTo` exactly when it is found among those below `upTo - 10`. */
  lemma EarlierSlotKept(upTo: int, stations: seq<LineStation>, trains: seq<LineTrain>, sections: seq<TrackSection>, km: int)
    requires 0 < km < upTo - 10
    ensures HasIntermediateAt(IntermediateSignals(upTo, stations, trains, sections), km as real)
            <==> HasIntermediateAt(IntermediateSignals(upTo - 10, stations, trains, sections), km as real)
  {
    var head := IntermediateSignals(upTo - 10, stations, trains, sections);
    var at := IntermediateSignalAt(upTo - 10, stations, trains, sections);
    assert IntermediateSignals(upTo, stations, trains, sections) == head + at;
    HasIntermediateAtAppend(head, at, km as real);
    IntermediateSignalAtRule(upTo - 10, stations, trains, sections, km as real);
  }

  /** The last slot below `upTo` holds a signal exactly when no station is near it. */
  lemma LastSlotRule(upTo: int, stations: seq<LineStation>, trains: seq<LineTrain>, sections: seq<TrackSection>, km: int)
    requires 0 < km == upTo - 10
    ensures HasIntermediateAt(IntermediateSignals(upTo, stations, trains, sections), km as real)
            <==> !StationNear(stations, km as real)
  {
    var head := IntermediateSignals(upTo - 10, stations, trains, sections);
    var at := IntermediateSignalAt(upTo - 10, stations, trains, sections);
    var x := km as real;
    assert IntermediateSignals(upTo, stations, trains, sections) == head + at;
    HasIntermediateAtAppend(head, at, x);
    IntermediateSignalAtRule(upTo - 10, stations, trains, sections, x);
    IntermediatePositions(upTo - 10, stations, trains, sections);
    assert !HasIntermediateAt(head, x);
  }

  /** The slot at `km` holds an intermediate signal at `x` exactly when `x` is `km` and no station is near it. */
  lemma IntermediateSignalAtRule(km: int, stations: seq<LineStation>, trains: seq<LineTrain>, sections: seq<TrackSection>, x: real)
    ensures HasIntermediateAt(IntermediateSignalAt(km, stations, trains, sections), x)
            <==> x == km as real && !StationNear(stations, x)
  {
    var at := IntermediateSignalAt(km, stations, trains, sections);
    if x == km as real && !StationNear(stations, x) {
      assert at[0].kind == Intermediate && at[0].position == x;
    }
  }

  /** Every intermediate signal below `upTo` is an intermediate signal at a positive km strictly below `upTo`. */
  lemma {:induction false} IntermediatePositions(upTo: int, stations: seq<LineStation>, trains: seq<LineTrain>, sections: seq<TrackSection>)
    ensures forall j :: 0 <= j < |IntermediateSignals(upTo, stations, trains, sections)| ==>
      0.0 < IntermediateSignals(upTo, stations, trains, sections)[j].position < upTo as real
      && IntermediateSignals(upTo, stations, trains, sections)[j].kind == Intermediate
    decreases upTo
  {
    if upTo > 10 {
      var prev: seq<Signal> := IntermediateSignals(upTo - 10, stations, trains, sections);
      var at: seq<Signal> := IntermediateSignalAt(upTo - 10, stations, trains, sections);
      var all: seq<Signal> := prev + at;
      assert IntermediateSignals(upTo, stations, trains, sections) == all;
      IntermediatePositions(upTo - 10, stations, trains, sections);
      forall j | 0 <= j < |all|
        ensures 0.0 < all[j].position < upTo as real && all[j].kind == Intermediate
      {
        if j >= |prev| {
          assert all[j] == at[0];
        }
      }
    }
  }

  /** In the placement, an intermediate signal stands at km 10k (k = 1..9) exactly when no station lies within 2 km of it. */
  lemma IntermediatePlacementRule(data: LineData, k: nat)
    requires 1 <= k <= 9
    ensures HasIntermediateAt(Placement(data), (10 * k) as real) <==> !StationNear(data.stations, (10 * k) as real)
  {
    var a := StationsSignals(data.stations, data.trains, data.sections);
    var b := IntermediateSignals(IntermediateLimit(), data.stations, data.trains, data.sections);
    HasIntermediateAtAppend(a, b, (10 * k) as real);
    StationsSignalsNotIntermediate(data.stations, data.trains, data.sections);
    IntermediateSignalRule(IntermediateLimit(), data.stations, data.trains, data.sections, 10 * k, 10 - k);
  }

  lemma {:induction false} StationsSignalsNotIntermediate(stations: seq<LineStation>, trains: seq<LineTrain>, sections: seq<TrackSection>)
    ensures forall j :: 0 <= j < |StationsSignals(stations, trains, sections)| ==>
      StationsSignals(stations, trains, sections)[j].kind != Intermediate
  {
    if stations != [] {
      StationsSignalsNotIntermediate(stations[..|stations| - 1], trains, sections);
    }
  }

  /**
   * One tick of `updateTrainPositions` for one train: an emergency or stopped
   * train stays put; otherwise it moves speed * 5 / 3600 km, towards km 100
   * when 'down' and towards km 0 when 'up', clamped to the line.
   */
  function StepTrain(t: LineTrain): (r: LineTrain)
    ensures t.status == Emergency || t.speed == 0.0 ==> r == t
    ensures r == t.(km := r.km)
  {
    if t.status == Emergency || t.speed == 0.0 then t
    else
      var movement := (t.speed / 60.0) * (5.0 / 60.0);
      var newKm := if t.direction == Down then Min(LineEndKm, t.km + movement)
                   else Max(0.0, t.km - movement);
      t.(km := newKm)
  }

  function Min(a: real, b: real): real { if a <= b then a else b }

  function Max(a: real, b: real): real { if a >= b then a else b }

  /** The new position after one tick of a moving train: min(100, km + speed*5/3600) going down, max(0, km - speed*5/3600) going up. */
  lemma StepMovesBySpeed(t: LineTrain)
    requires t.status != Emergency && t.speed != 0.0
    ensures t.direction == Down ==> StepTrain(t).km == Min(100.0, t.km + t.speed * 5.0 / 3600.0)
    ensures t.direction == Up ==> StepTrain(t).km == Max(0.0, t.km - t.speed * 5.0 / 3600.0)
  {
  }

  /** A train on the line, with non-negative speed, stays on the line. */
  lemma StepStaysOnLine(t: LineTrain)
    requires 0.0 <= t.km <= LineEndKm && t.speed >= 0.0
    ensures 0.0 <= StepTrain(t).km <= LineEndKm
  {
  }

  /** `prev.trains.map(...)` */
  function StepAll(trains: seq<LineTrain>): (r: seq<LineTrain>)
    ensures |r| == |trains|
    ensures forall i :: 0 <= i < |r| ==> r[i] == StepTrain(trains[i])
  {
    seq(|trains|, i requires 0 <= i < |trains| => StepTrain(trains[i]))
  }

  /** After a tick every train keeps its id, order and everything but its position, and trains on the line stay on it. */
  lemma StepAllKeepsLine(trains: seq<LineTrain>)
    requires forall i :: 0 <= i < |trains| ==> 0.0 <= trains[i].km <= LineEndKm && trains[i].speed >= 0.0
    ensures forall i :: 0 <= i < |trains| ==>
      StepAll(trains)[i] == trains[i].(km := StepAll(trains)[i].km) && 0.0 <= StepAll(trains)[i].km <= LineEndKm
  {
    forall i | 0 <= i < |trains|
      ensures 0.0 <= StepAll(trains)[i].km <= LineEndKm
    {
      StepStaysOnLine(trains[i]);
    }
  }

  /**
   * The signaling view's state: the line data (absent until the first effect
   * runs) and the list of signals.
   */
  class SignalBoard {
    var lineData: Option<LineData>
    var signals: seq<Signal>

    constructor ()
      ensures lineData == None && signals == []
    {
      lineData := None;
      signals := [];
    }

    /** The mounting effect: store the line data and place the signals. */
    method Initialize(data: LineData)
      modifies this
      ensures lineData == Some(data)
      ensures signals == Placement(data)
      ensures EvaluateAll(signals, data.trains, data.sections) == signals
    {
      lineData := Some(data);
      signals := GenerateSignals(data);
      UpdateAgreesWithPlacement(data);
    }

    /** `updateSignals(trains, sections)`: every signal re-evaluated; the line data untouched. */
    method UpdateSignals(trains: seq<LineTrain>, sections: seq<TrackSection>)
      modifies this
      ensures lineData == old(lineData)
      ensures signals == EvaluateAll(old(signals), trains, sections)
    {
      signals := EvaluateAll(signals, trains, sections);
    }

    /**
     * `updateTrainPositions`. The first guard reads the `lineData` value the
     * calling closure captured, given here as `capturedLineData`; the second
     * reads the current state. Signals are untouched.
     */
    method UpdateTrainPositions(capturedLineData: bool)
      modifies this
      ensures signals == old(signals)
      ensures !capturedLineData || old(lineData).None? ==> lineData == old(lineData)
      ensures capturedLineData && old(lineData).Some? ==>
        lineData == Some(old(lineData).value.(trains := StepAll(old(lineData).value.trains)))
    {
      if !capturedLineData {
        return;
      }
      match lineData
      case None =>
      case Some(prev) =>
        lineData := Some(prev.(trains := StepAll(prev.trains)));
    }
  }
}

=== FILE: simulation.dfy ===
/**
 * Scoring a recommendation before it is applied (components/SimulationModal.tsx,
 * `generateSimulationResult`). The three `Math.random()` draws, the generated id and
 * the timestamp are parameters.
 */
module Simulation {
  import opened Types

  /** The modal's parameters before the user changes them. */
  const DefaultParameters := SimulationParameters(60, "regional", "high")

  const ExcellentImpact := "Excellent optimization potential. Significant improvement in network efficiency with minimal disruption to passenger services."
  const GoodImpact := "Good optimization opportunity. Moderate improvement in network performance with acceptable trade-offs."
  const MinorImpact := "Minor optimization benefit. Small improvement in network efficiency with low risk."
  const LimitedImpact := "Limited optimization benefit. Consider alternative approaches or parameter adjustments."

  /** Wider scopes scale the expected effect up: network 1.5, regional 1.2, anything else 1.0. */
  function ScopeMultiplier(scope: string): (m: real)
    ensures 1.0 <= m <= 1.5
    ensures m == 1.5 <==> scope == "network"
    ensures m == 1.2 <==> scope == "regional"
    ensures scope != "network" && scope != "regional" ==> m == 1.0
  {
    if scope == "network" then 1.5 else if scope == "regional" then 1.2 else 1.0
  }

  /** Lower accuracy widens the random spread: high 0.1, medium 0.2, anything else 0.3. */
  function AccuracyVariance(accuracy: string): (v: real)
    ensures 0.1 <= v <= 0.3
    ensures v == 0.1 <==> accuracy == "high"
    ensures v == 0.2 <==> accuracy == "medium"
    ensures accuracy != "high" && accuracy != "medium" ==> v == 0.3
  {
    if accuracy == "high" then 0.1 else if accuracy == "medium" then 0.2 else 0.3
  }

  /** `1 + (Math.random() - 0.5) * variance` for a draw `r`. */
  function Jitter(r: real, variance: real): real
  {
    1.0 + (r - 0.5) * variance
  }

  /** A draw in [0, 1) and a variance of at most 0.3 keep the jitter within 15% of 1, so it is positive. */
  lemma JitterPositive(r: real, variance: real)
    requires 0.0 <= r < 1.0 && 0.0 <= variance <= 0.3
    ensures 0.85 <= Jitter(r, variance) <= 1.15
  {
    var d := r - 0.5;
    var p := d * variance;
    assert Jitter(r, variance) == 1.0 + p;
    if d >= 0.0 {
      ScaleBelow(d, 0.5, variance);
      assert p <= 0.5 * variance <= 0.15;
      NonNegativeProduct(d, variance);
      assert 0.0 <= p;
    } else {
      ScaleBelow(-0.5, d, variance);
      assert -0.15 <= -0.5 * variance <= p;
      NonPositiveProduct(d, variance);
      assert p <= 0.0;
    }
    assert -0.15 <= p <= 0.15;
  }

  /** `Math.round(-reduction * multiplier * jitter)` */
  function ProjectedChange(reduction: int, multiplier: real, jitter: real): int
  {
    Round(-(reduction as real) * multiplier * jitter)
  }

  /** A non-negative reduction with a positive multiplier and jitter never projects a worsening. */
  lemma ProjectedChangeNotPositive(reduction: int, multiplier: real, jitter: real)
    requires reduction >= 0 && multiplier > 0.0 && jitter > 0.0
    ensures ProjectedChange(reduction, multiplier, jitter) <= 0
  {
    var x := (reduction as real) * multiplier;
    assert x >= 0.0;
    assert x * jitter >= 0.0;
    assert -(reduction as real) * multiplier * jitter == -(x * jitter);
  }

  /** `Math.round(Math.abs(c) * 0.6 * (c < 0 ? 1 : -1))`: a gain when congestion falls, a loss otherwise. */
  function ThroughputChange(congestionChange: int): (t: int)
    ensures congestionChange < 0 ==> t >= 0
    ensures congestionChange >= 0 ==> t <= 0
  {
    var magnitude := (if congestionChange < 0 then -congestionChange else congestionChange) as real;
    Round(magnitude * 0.6 * (if congestionChange < 0 then 1.0 else -1.0))
  }

  /** Three fifths of a whole number is never halfway between two whole numbers, so rounding commutes with negation. */
  lemma RoundNegatedFifths(n: nat)
    ensures Round(-(n as real) * 0.6) == -Round(n as real * 0.6)
  {
    var x := n as real * 0.6;
    var k := Round(x);
    assert 6 * n != 10 * k - 5;
    assert x * 10.0 == (6 * n) as real;
    assert x != k as real - 0.5;
    assert -(n as real) * 0.6 == -x;
    assert -(k as real) < -x + 0.5 < -(k as real) + 1.0;
  }

  /** The magnitude of the throughput change is the rounded 60% of the congestion change's magnitude. */
  lemma ThroughputMagnitude(congestionChange: int)
    ensures var magnitude := if congestionChange < 0 then -congestionChange else congestionChange;
            ThroughputChange(congestionChange)
            == (if congestionChange < 0 then Round(magnitude as real * 0.6) else -Round(magnitude as real * 0.6))
  {
    var magnitude: nat := if congestionChange < 0 then -congestionChange else congestionChange;
    if congestionChange >= 0 {
      RoundNegatedFifths(magnitude);
      assert magnitude as real * 0.6 * -1.0 == -(magnitude as real) * 0.6;
    } else {
      assert magnitude as real * 0.6 * 1.0 == magnitude as real * 0.6;
    }
  }

  /** The verdict chain as a tier: 3 excellent, 2 good, 1 minor, 0 limited. */
  function ImpactTier(delayChange: int, congestionChange: int): (tier: nat)
    ensures tier <= 3
    ensures tier == 3 <==> delayChange < -10 && congestionChange < -15
    ensures tier >= 2 <==> delayChange < -5 && congestionChange < -10
    ensures tier >= 1 <==> delayChange < 0 && congestionChange < 0
  {
    if delayChange < -10 && congestionChange < -15 then 3
    else if delayChange < -5 && congestionChange < -10 then 2
    else if delayChange < 0 && congestionChange < 0 then 1
    else 0
  }

  /** The sentence shown for each tier. */
  function ImpactText(tier: nat): (s: string)
    requires tier <= 3
  {
    if tier == 3 then ExcellentImpact
    else if tier == 2 then GoodImpact
    else if tier == 1 then MinorImpact
    else LimitedImpact
  }

  /** A projection at least as good on both measures never gets a worse verdict. */
  lemma ImpactTierMonotone(d1: int, c1: int, d2: int, c2: int)
    requires d2 <= d1 && c2 <= c1
    ensures ImpactTier(d1, c1) <= ImpactTier(d2, c2)
  {
  }

  /** `generateSimulationResult(recommendation, parameters)` with the three draws `r1`, `r2`, `r3` in call order. */
  function GenerateSimulationResult(id: string, timestamp: string, recommendation: Recommendation,
                                    parameters: SimulationParameters, r1: real, r2: real, r3: real): (r: SimulationResult)
    ensures r.id == id && r.timestamp == timestamp
    ensures r.scenario == recommendation.title && r.parameters == parameters
    ensures r.results.delayChange
            == ProjectedChange(recommendation.impact.delayReduction, ScopeMultiplier(parameters.scope),
                               Jitter(r1, AccuracyVariance(parameters.accuracy)))
    ensures r.results.congestionChange
            == ProjectedChange(recommendation.impact.congestionReduction, ScopeMultiplier(parameters.scope),
                               Jitter(r2, AccuracyVariance(parameters.accuracy)))
    ensures r.results.affectedTrains == Round(recommendation.impact.affectedTrains as real * ScopeMultiplier(parameters.scope))
    ensures var drawn := recommendation.confidence as real + (r3 - 0.5) * 20.0;
            r.confidence >= 70.0 && r.confidence >= drawn && (r.confidence == 70.0 || r.confidence == drawn)
    ensures r.results.throughputChange == ThroughputChange(r.results.congestionChange)
    ensures r.results.estimatedImpact == ImpactText(ImpactTier(r.results.delayChange, r.results.congestionChange))
  {
    var multiplier := ScopeMultiplier(parameters.scope);
    var variance := AccuracyVariance(parameters.accuracy);
    var delayChange := ProjectedChange(recommendation.impact.delayReduction, multiplier, Jitter(r1, variance));
    var congestionChange := ProjectedChange(recommendation.impact.congestionReduction, multiplier, Jitter(r2, variance));
    var confidence := recommendation.confidence as real + (r3 - 0.5) * 20.0;
    SimulationResult(
      id,
      recommendation.title,
      parameters,
      SimulationOutcome(
        delayChange,
        congestionChange,
        ThroughputChange(congestionChange),
        Round(recommendation.impact.affectedTrains as real * multiplier),
        ImpactText(ImpactTier(delayChange, congestionChange))),
      if confidence < 70.0 then 70.0 else confidence,
      timestamp)
  }

  /** With draws from `Math.random()`, non-negative reductions never project more delay or congestion. */
  lemma SimulationNeverWorsens(id: string, timestamp: string, recommendation: Recommendation,
                               parameters: SimulationParameters, r1: real, r2: real, r3: real)
    requires 0.0 <= r1 < 1.0 && 0.0 <= r2 < 1.0
    requires recommendation.impact.delayReduction >= 0 && recommendation.impact.congestionReduction >= 0
    ensures var r := GenerateSimulationResult(id, timestamp, recommendation, parameters, r1, r2, r3);
            r.results.delayChange <= 0 && r.results.congestionChange <= 0 && r.results.throughputChange >= 0
  {
    var multiplier := ScopeMultiplier(parameters.scope);
    var variance := AccuracyVariance(parameters.accuracy);
    JitterPositive(r1, variance);
    JitterPositive(r2, variance);
    ProjectedChangeNotPositive(recommendation.impact.delayReduction, multiplier, Jitter(r1, variance));
    ProjectedChangeNotPositive(recommendation.impact.congestionReduction, multiplier, Jitter(r2, variance));
  }

  /** Scaling by a multiplier of at least 1 never lowers the affected-train count, and at most multiplies it by 1.5. */
  lemma AffectedTrainsScaled(id: string, timestamp: string, recommendation: Recommendation,
                             parameters: SimulationParameters, r1: real, r2: real, r3: real)
    requires recommendation.impact.affectedTrains >= 0
    ensures var r := GenerateSimulationResult(id, timestamp, recommendation, parameters, r1, r2, r3);
            var n := recommendation.impact.affectedTrains;
            n <= r.results.affectedTrains && 2 * r.results.affectedTrains <= 3 * n + 1
  {
    var n := recommendation.impact.affectedTrains;
    var m := ScopeMultiplier(parameters.scope);
    var x := n as real * m;
    assert n as real <= x <= n as real * 1.5;
  }
}

=== FILE: store.dfy ===
/**
 * The dashboard's global store (store/useTrainStore.ts): one object whose list
 * fields each action replaces with a new list built by map, filter or slice.
 * The list computations are functions here; the store is a class whose
 * methods assign exactly the field the action names.
 */
module Store {
  import opened Types
  import opened Seqs

  /** `addAlert` keeps the 50 newest alerts. */
  const MaxAlerts: nat := 50

  /** `addSimulationResult` keeps the 10 newest results. */
  const MaxSimulationResults: nat := 10

  /** `updateTrain`: every train with the id gets the update's fields; order and length are kept. */
  function UpdatedTrains(trains: seq<Train>, trainId: string, updates: TrainPatch): (r: seq<Train>)
    ensures |r| == |trains|
    ensures forall i :: 0 <= i < |trains| ==>
              r[i] == if trains[i].id == trainId then OverlayTrain(trains[i], updates) else trains[i]
  {
    MapWhere(trains, (t: Train) => t.id == trainId, (t: Train) => OverlayTrain(t, updates))
  }

  /** Applying the same update twice has the effect of applying it once. */
  lemma UpdatedTrainsIdempotent(trains: seq<Train>, trainId: string, updates: TrainPatch)
    ensures UpdatedTrains(UpdatedTrains(trains, trainId, updates), trainId, updates)
            == UpdatedTrains(trains, trainId, updates)
  {
    var once := UpdatedTrains(trains, trainId, updates);
    var twice := UpdatedTrains(once, trainId, updates);
    forall i | 0 <= i < |trains|
      ensures twice[i] == once[i]
    {
      if trains[i].id == trainId {
        assert once[i] == OverlayTrain(trains[i], updates);
      }
    }
  }

  /** An update for an id no train carries leaves the list as it was. */
  lemma UpdatedTrainsAbsentId(trains: seq<Train>, trainId: string, updates: TrainPatch)
    requires forall i :: 0 <= i < |trains| ==> trains[i].id != trainId
    ensures UpdatedTrains(trains, trainId, updates) == trains
  {
  }

  /** `updateRecommendation`: only recommendations with the id are overlaid. */
  function UpdatedRecommendations(recs: seq<Recommendation>, id: string, updates: RecommendationPatch): (r: seq<Recommendation>)
    ensures |r| == |recs|
    ensures forall i :: 0 <= i < |recs| ==>
              r[i] == if recs[i].id == id then OverlayRecommendation(recs[i], updates) else recs[i]
  {
    MapWhere(recs, (rec: Recommendation) => rec.id == id,
             (rec: Recommendation) => OverlayRecommendation(rec, updates))
  }

  /** Applying the same recommendation update twice has the effect of applying it once. */
  lemma UpdatedRecommendationsIdempotent(recs: seq<Recommendation>, id: string, updates: RecommendationPatch)
    ensures UpdatedRecommendations(UpdatedRecommendations(recs, id, updates), id, updates)
            == UpdatedRecommendations(recs, id, updates)
  {
    var once := UpdatedRecommendations(recs, id, updates);
    var twice := UpdatedRecommendations(once, id, updates);
    forall i | 0 <= i < |recs|
      ensures twice[i] == once[i]
    {
      if recs[i].id == id {
        assert once[i] == OverlayRecommendation(recs[i], updates);
      }
    }
  }

  /** `removeRecommendation`: no recommendation with the id is left, every other one is, and the list never grows. */
  function WithoutRecommendation(recs: seq<Recommendation>, id: string): (r: seq<Recommendation>)
    ensures |r| <= |recs|
    ensures forall i :: 0 <= i < |r| ==> r[i].id != id && r[i] in recs
    ensures forall i :: 0 <= i < |recs| && recs[i].id != id ==> recs[i] in r
  {
    Filter(recs, (rec: Recommendation) => rec.id != id)
  }

  /** Removal keeps the survivors in their original order: it distributes over concatenation. */
  lemma WithoutRecommendationAppend(a: seq<Recommendation>, b: seq<Recommendation>, id: string)
    ensures WithoutRecommendation(a + b, id) == WithoutRecommendation(a, id) + WithoutRecommendation(b, id)
  {
    FilterAppend(a, b, (rec: Recommendation) => rec.id != id);
  }

  /** Removing an id that is not present changes nothing. */
  lemma WithoutRecommendationAbsent(recs: seq<Recommendation>, id: string)
    requires forall i :: 0 <= i < |recs| ==> recs[i].id != id
    ensures WithoutRecommendation(recs, id) == recs
  {
    FilterAll(recs, (rec: Recommendation) => rec.id != id);
  }

  /** `removeRecommendation` undoes `addRecommendation`, up to older entries with the same id. */
  lemma RemoveUndoesAdd(recs: seq<Recommendation>, rec: Recommendation)
    ensures WithoutRecommendation([rec] + recs, rec.id) == WithoutRecommendation(recs, rec.id)
  {
    assert ([rec] + recs)[1..] == recs;
  }

  /** `addAlert`: the new alert first, then the newest 49 of the old ones. */
  function WithAlert(alerts: seq<Alert>, alert: Alert): (r: seq<Alert>)
    ensures |r| == if |alerts| + 1 < MaxAlerts then |alerts| + 1 else MaxAlerts
    ensures r[0] == alert
    ensures r[1..] == alerts[..|r| - 1]
  {
    [alert] + Take(alerts, MaxAlerts - 1)
  }

  /** `acknowledgeAlert`: alerts with the id become acknowledged; nothing else changes. */
  function AcknowledgedAlerts(alerts: seq<Alert>, id: string): (r: seq<Alert>)
    ensures |r| == |alerts|
    ensures forall i :: 0 <= i < |alerts| ==>
              r[i] == if alerts[i].id == id then alerts[i].(acknowledged := true) else alerts[i]
  {
    MapWhere(alerts, (a: Alert) => a.id == id, (a: Alert) => a.(acknowledged := true))
  }

  /** Acknowledging twice is acknowledging once. */
  lemma AcknowledgedAlertsIdempotent(alerts: seq<Alert>, id: string)
    ensures AcknowledgedAlerts(AcknowledgedAlerts(alerts, id), id) == AcknowledgedAlerts(alerts, id)
  {
  }

  /** The unacknowledged count drops by exactly the number of unacknowledged alerts carrying the id. */
  lemma {:induction false} AcknowledgeLowersUnacknowledged(alerts: seq<Alert>, id: string)
    ensures Count(AcknowledgedAlerts(alerts, id), Unacknowledged)
            + Count(alerts, (a: Alert) => Unacknowledged(a) && a.id == id)
            == Count(alerts, Unacknowledged)
  {
    if alerts != [] {
      var r := AcknowledgedAlerts(alerts, id);
      assert r[1..] == AcknowledgedAlerts(alerts[1..], id);
      AcknowledgeLowersUnacknowledged(alerts[1..], id);
    }
  }

  /** `updateAgent`: only agents with the id are overlaid. */
  function UpdatedAgents(agents: seq<Agent>, id: string, updates: AgentPatch): (r: seq<Agent>)
    ensures |r| == |agents|
    ensures forall i :: 0 <= i < |agents| ==>
              r[i] == if agents[i].id == id then OverlayAgent(agents[i], updates) else agents[i]
  {
    MapWhere(agents, (a: Agent) => a.id == id, (a: Agent) => OverlayAgent(a, updates))
  }

  /** Applying the same agent update twice has the effect of applying it once. */
  lemma UpdatedAgentsIdempotent(agents: seq<Agent>, id: string, updates: AgentPatch)
    ensures UpdatedAgents(UpdatedAgents(agents, id, updates), id, updates) == UpdatedAgents(agents, id, updates)
  {
    var once := UpdatedAgents(agents, id, updates);
    var twice := UpdatedAgents(once, id, updates);
    forall i | 0 <= i < |agents|
      ensures twice[i] == once[i]
    {
      if agents[i].id == id {
        assert once[i] == OverlayAgent(agents[i], updates);
      }
    }
  }

  /** `addSimulationResult`: the new result first, then the newest 9 of the old ones. */
  function WithSimulationResult(results: seq<SimulationResult>, result: SimulationResult): (r: seq<SimulationResult>)
    ensures |r| == if |results| + 1 < MaxSimulationResults then |results| + 1 else MaxSimulationResults
    ensures r[0] == result
    ensures r[1..] == results[..|r| - 1]
  {
    [result] + Take(results, MaxSimulationResults - 1)
  }

  /** Every field of the store, as one value. */
  datatype StoreState = StoreState(
    trains: seq<Train>,
    stations: seq<Station>,
    tracks: seq<Track>,
    recommendations: seq<Recommendation>,
    networkStats: NetworkStats,
    alerts: seq<Alert>,
    agents: seq<Agent>,
    simulationResults: seq<SimulationResult>,
    selectedTrain: Option<Train>,
    selectedRecommendation: Option<Recommendation>,
    isSimulationModalOpen: bool,
    mapCenter: (real, real),
    mapZoom: real,
    isConnected: bool)

  /** The store's state before any action: empty lists, zero statistics, map centred on Delhi. */
  function InitialState(): (s: StoreState)
    ensures Bounded(s)
  {
    StoreState([], [], [], [], NetworkStats(0, 0, 0, 0, 0, 0.0, 0, 0), [], [], [],
               None, None, false, (77.2090, 28.6139), 6.0, false)
  }

  /** The two capped lists are within their caps. */
  predicate Bounded(s: StoreState)
  {
    |s.alerts| <= MaxAlerts && |s.simulationResults| <= MaxSimulationResults
  }

  class TrainStore {
    var trains: seq<Train>
    var stations: seq<Station>
    var tracks: seq<Track>
    var recommendations: seq<Recommendation>
    var networkStats: NetworkStats
    var alerts: seq<Alert>
    var agents: seq<Agent>
    var simulationResults: seq<SimulationResult>
    var selectedTrain: Option<Train>
    var selectedRecommendation: Option<Recommendation>
    var isSimulationModalOpen: bool
    var mapCenter: (real, real)
    var mapZoom: real
    var isConnected: bool

    function Snapshot(): StoreState
      reads this
    {
      StoreState(trains, stations, tracks, recommendations, networkStats, alerts, agents,
                 simulationResults, selectedTrain, selectedRecommendation,
                 isSimulationModalOpen, mapCenter, mapZoom, isConnected)
    }

    constructor()
      ensures Snapshot() == InitialState()
    {
      trains, stations, tracks, recommendations := [], [], [], [];
      networkStats := NetworkStats(0, 0, 0, 0, 0, 0.0, 0, 0);
      alerts, agents, simulationResults := [], [], [];
      selectedTrain, selectedRecommendation := None, None;
      isSimulationModalOpen := false;
      mapCenter, mapZoom := (77.2090, 28.6139), 6.0;
      isConnected := false;
    }

    method SetTrains(newTrains: seq<Train>)
      modifies this
      ensures Snapshot() == old(Snapshot()).(trains := newTrains)
    {
      trains := newTrains;
    }

    method UpdateTrain(trainId: string, updates: TrainPatch)
      modifies this
      ensures Snapshot() == old(Snapshot()).(trains := UpdatedTrains(old(trains), trainId, updates))
    {
      trains := UpdatedTrains(trains, trainId, updates);
    }

    method SetStations(newStations: seq<Station>)
      modifies this
      ensures Snapshot() == old(Snapshot()).(stations := newStations)
    {
      stations := newStations;
    }

    method SetTracks(newTracks: seq<Track>)
      modifies this
      ensures Snapshot() == old(Snapshot()).(tracks := newTracks)
    {
      tracks := newTracks;
    }

    method AddRecommendation(recommendation: Recommendation)
      modifies this
      ensures Snapshot() == old(Snapshot()).(recommendations := [recommendation] + old(recommendations))
    {
      recommendations := [recommendation] + recommendations;
    }

    method UpdateRecommendation(id: string, updates: RecommendationPatch)
      modifies this
      ensures Snapshot() == old(Snapshot()).(recommendations := UpdatedRecommendations(old(recommendations), id, updates))
    {
      recommendations := UpdatedRecommendations(recommendations, id, updates);
    }

    method RemoveRecommendation(id: string)
      modifies this
      ensures Snapshot() == old(Snapshot()).(recommendations := WithoutRecommendation(old(recommendations), id))
    {
      recommendations := WithoutRecommendation(recommendations, id);
    }

    method SetNetworkStats(stats: NetworkStats)
      modifies this
      ensures Snapshot() == old(Snapshot()).(networkStats := stats)
    {
      networkStats := stats;
    }

    method AddAlert(alert: Alert)
      modifies this
      ensures Snapshot() == old(Snapshot()).(alerts := WithAlert(old(alerts), alert))
      ensures old(Bounded(Snapshot())) ==> Bounded(Snapshot())
    {
      alerts := WithAlert(alerts, alert);
    }

    method AcknowledgeAlert(id: string)
      modifies this
      ensures Snapshot() == old(Snapshot()).(alerts := AcknowledgedAlerts(old(alerts), id))
      ensures old(Bounded(Snapshot())) ==> Bounded(Snapshot())
    {
      alerts := AcknowledgedAlerts(alerts, id);
    }

    method ClearAllAlerts()
      modifies this
      ensures Snapshot() == old(Snapshot()).(alerts := [])
      ensures old(Bounded(Snapshot())) ==> Bounded(Snapshot())
    {
      alerts := [];
    }

    method SetAgents(newAgents: seq<Agent>)
      modifies this
      ensures Snapshot() == old(Snapshot()).(agents := newAgents)
    {
      agents := newAgents;
    }

    method UpdateAgent(id: string, updates: AgentPatch)
      modifies this
      ensures Snapshot() == old(Snapshot()).(agents := UpdatedAgents(old(agents), id, updates))
    {
      agents := UpdatedAgents(agents, id, updates);
    }

    method AddSimulationResult(result: SimulationResult)
      modifies this
      ensures Snapshot() == old(Snapshot()).(simulationResults := WithSimulationResult(old(simulationResults), result))
      ensures old(Bounded(Snapshot())) ==> Bounded(Snapshot())
    {
      simulationResults := WithSimulationResult(simulationResults, result);
    }

    method SelectTrain(train: Option<Train>)
      modifies this
      ensures Snapshot() == old(Snapshot()).(selectedTrain := train)
    {
      selectedTrain := train;
    }

    method SelectRecommendation(recommendation: Option<Recommendation>)
      modifies this
      ensures Snapshot() == old(Snapshot()).(selectedRecommendation := recommendation)
    {
      selectedRecommendation := recommendation;
    }

    method SetSimulationModalOpen(open: bool)
      modifies this
      ensures Snapshot() == old(Snapshot()).(isSimulationModalOpen := open)
    {
      isSimulationModalOpen := open;
    }

    method SetMapView(center: (real, real), zoom: real)
      modifies this
      ensures Snapshot() == old(Snapshot()).(mapCenter := center, mapZoom := zoom)
    {
      mapCenter, mapZoom := center, zoom;
    }

    method SetConnectionStatus(connected: bool)
      modifies this
      ensures Snapshot() == old(Snapshot()).(isConnected := connected)
    {
      isConnected := connected;
    }
  }
}

=== FILE: text.dfy ===
/** Decimal rendering of integers, as JavaScript's template literals print whole numbers. */
module Text {

  predicate IsDigit(c: char)
  {
    '0' <= c <= '9'
  }

  predicate AllDigits(s: string)
  {
    forall i :: 0 <= i < |s| ==> IsDigit(s[i])
  }

  function DigitChar(d: nat): (c: char)
    requires d < 10
    ensures IsDigit(c) && c as int - '0' as int == d
  {
    ('0' as int + d) as char
  }

  /** The decimal digits of `n`, most significant first. */
  function NatToString(n: nat): (s: string)
    ensures |s| >= 1 && AllDigits(s)
  {
    if n < 10 then [DigitChar(n)] else NatToString(n / 10) + [DigitChar(n % 10)]
  }

  /** Reads a string of decimal digits back as a number. */
  function ParseNat(s: string): nat
    requires AllDigits(s)
  {
    if s == [] then 0 else 10 * ParseNat(s[..|s| - 1]) + (s[|s| - 1] as int - '0' as int)
  }

  /** Reading back the digits of `n` gives `n`. */
  lemma {:induction false} ParseNatToString(n: nat)
    ensures ParseNat(NatToString(n)) == n
  {
    var s := NatToString(n);
    if n >= 10 {
      ParseNatToString(n / 10);
      assert s[..|s| - 1] == NatToString(n / 10);
    }
  }

  /** `${n}` for a whole number `n`: a minus sign, then the digits of its magnitude. */
  function IntToString(n: int): (s: string)
    ensures |s| >= 1
    ensures n < 0 <==> s[0] == '-'
  {
    if n < 0 then "-" + NatToString(-n) else NatToString(n)
  }

  /** Distinct numbers print as distinct strings. */
  lemma IntToStringInjective(a: int, b: int)
    requires IntToString(a) == IntToString(b)
    ensures a == b
  {
    if a < 0 {
      assert b < 0;
      assert NatToString(-a) == IntToString(a)[1..] == IntToString(b)[1..] == NatToString(-b);
      ParseNatToString(-a);
      ParseNatToString(-b);
    } else {
      ParseNatToString(a);
      ParseNatToString(b);
    }
  }
}

=== FILE: types.dfy ===
/**
 * Records shared by the dashboard's store and components (types/index.ts).
 * Latitude/longitude positions and map coordinates are floating-point display
 * data and are not part of these records.
 */
module Types {

  datatype Option<T> = None | Some(value: T)

  /** Picks the patched value when one is given, as an object spread does. */
  function Or<T>(patch: Option<T>, current: T): T
  {
    match patch
    case Some(v) => v
    case None => current
  }

  /** `Math.max` on whole numbers. */
  function MaxInt(a: int, b: int): int
  {
    if a < b then b else a
  }

  /** `Math.min` on whole numbers. */
  function MinInt(a: int, b: int): int
  {
    if a < b then a else b
  }

  datatype TrainStatus = OnTime | Delayed | Emergency | Maintenance

  /** The string literal the source uses for each train status. */
  function TrainStatusName(s: TrainStatus): string
  {
    match s
    case OnTime => "on-time"
    case Delayed => "delayed"
    case Emergency => "emergency"
    case Maintenance => "maintenance"
  }

  /** A train as the global store keeps it; speed in km/h, delay in minutes (negative: early). */
  datatype Train = Train(
    id: string,
    name: string,
    route: string,
    status: TrainStatus,
    speed: int,
    delay: int,
    eta: string,
    nextStation: string,
    passengers: int,
    capacity: int)

  /** `Partial<Train>`: a field that is `None` is absent from the update object. */
  datatype TrainPatch = TrainPatch(
    id: Option<string>,
    name: Option<string>,
    route: Option<string>,
    status: Option<TrainStatus>,
    speed: Option<int>,
    delay: Option<int>,
    eta: Option<string>,
    nextStation: Option<string>,
    passengers: Option<int>,
    capacity: Option<int>)

  /** `{ ...train, ...updates }` */
  function OverlayTrain(t: Train, p: TrainPatch): Train
  {
    Train(Or(p.id, t.id), Or(p.name, t.name), Or(p.route, t.route), Or(p.status, t.status),
          Or(p.speed, t.speed), Or(p.delay, t.delay), Or(p.eta, t.eta),
          Or(p.nextStation, t.nextStation), Or(p.passengers, t.passengers),
          Or(p.capacity, t.capacity))
  }

  /** An update object that sets only status, delay and speed. */
  function StatusDelaySpeedPatch(status: TrainStatus, delay: Option<int>, speed: Option<int>): TrainPatch
  {
    TrainPatch(None, None, None, Some(status), speed, delay, None, None, None, None)
  }

  datatype CongestionLevel = LevelLow | LevelMedium | LevelHigh

  datatype Station = Station(id: string, name: string, code: string, platforms: int,
                             congestionLevel: CongestionLevel)

  datatype TrackStatus = Operational | TrackMaintenance | TrackBlocked

  datatype Track = Track(id: string, name: string, status: TrackStatus,
                         congestionLevel: CongestionLevel, maxSpeed: int)

  datatype RecommendationType = Reroute | Delay | Priority | MaintenanceStop | EmergencyStop

  datatype RecommendationStatus = Pending | Accepted | Rejected | Simulating

  datatype Urgency = UrgencyLow | UrgencyMedium | UrgencyHigh | UrgencyCritical

  function UrgencyName(u: Urgency): string
  {
    match u
    case UrgencyLow => "low"
    case UrgencyMedium => "medium"
    case UrgencyHigh => "high"
    case UrgencyCritical => "critical"
  }

  datatype Impact = Impact(delayReduction: int, congestionReduction: int,
                           affectedTrains: int, estimatedSavings: int)

  datatype Recommendation = Recommendation(
    id: string,
    agentId: string,
    agentName: string,
    kind: RecommendationType,
    trainId: Option<string>,
    affectedTrains: Option<seq<string>>,
    title: string,
    description: string,
    impact: Impact,
    confidence: int,
    timestamp: string,
    status: RecommendationStatus,
    urgency: Urgency)

  /**
   * `Partial<AIRecommendation>` over the recommendation's required fields; the optional
   * `trainId` and `affectedTrains` are not part of the record here.
   */
  datatype RecommendationPatch = RecommendationPatch(
    id: Option<string>,
    agentId: Option<string>,
    agentName: Option<string>,
    kind: Option<RecommendationType>,
    title: Option<string>,
    description: Option<string>,
    impact: Option<Impact>,
    confidence: Option<int>,
    timestamp: Option<string>,
    status: Option<RecommendationStatus>,
    urgency: Option<Urgency>)

  function OverlayRecommendation(r: Recommendation, p: RecommendationPatch): Recommendation
  {
    r.(id := Or(p.id, r.id), agentId := Or(p.agentId, r.agentId),
       agentName := Or(p.agentName, r.agentName), kind := Or(p.kind, r.kind),
       title := Or(p.title, r.title), description := Or(p.description, r.description),
       impact := Or(p.impact, r.impact), confidence := Or(p.confidence, r.confidence),
       timestamp := Or(p.timestamp, r.timestamp), status := Or(p.status, r.status),
       urgency := Or(p.urgency, r.urgency))
  }

  datatype NetworkStats = NetworkStats(
    totalTrains: int,
    onTimeTrains: int,
    delayedTrains: int,
    emergencyTrains: int,
    averageDelay: int,
    networkThroughput: real,
    activeDisruptions: int,
    congestionHotspots: int)

  datatype AlertType = Weather | MaintenanceAlert | EmergencyAlert | Congestion | SystemAlert

  function AlertTypeName(t: AlertType): string
  {
    match t
    case Weather => "weather"
    case MaintenanceAlert => "maintenance"
    case EmergencyAlert => "emergency"
    case Congestion => "congestion"
    case SystemAlert => "system"
  }

  datatype Severity = Info | Warning | Error | Critical

  function SeverityName(s: Severity): string
  {
    match s
    case Info => "info"
    case Warning => "warning"
    case Error => "error"
    case Critical => "critical"
  }

  datatype Alert = Alert(
    id: string,
    kind: AlertType,
    severity: Severity,
    title: string,
    message: string,
    location: Option<string>,
    timestamp: string,
    acknowledged: bool,
    affectedTrains: Option<seq<string>>)

  /** `!alert.acknowledged` */
  predicate Unacknowledged(a: Alert)
  {
    !a.acknowledged
  }

  datatype AgentType = DataCollector | Scheduler | ConflictResolver | Predictor | Coordinator

  datatype AgentStatus = Active | Idle | Processing | AgentError

  datatype Agent = Agent(
    id: string,
    name: string,
    kind: AgentType,
    status: AgentStatus,
    lastActivity: string,
    processedEvents: int,
    accuracy: real)

  /** `Partial<Agent>` */
  datatype AgentPatch = AgentPatch(
    id: Option<string>,
    name: Option<string>,
    kind: Option<AgentType>,
    status: Option<AgentStatus>,
    lastActivity: Option<string>,
    processedEvents: Option<int>,
    accuracy: Option<real>)

  function OverlayAgent(a: Agent, p: AgentPatch): Agent
  {
    Agent(Or(p.id, a.id), Or(p.name, a.name), Or(p.kind, a.kind), Or(p.status, a.status),
          Or(p.lastActivity, a.lastActivity), Or(p.processedEvents, a.processedEvents),
          Or(p.accuracy, a.accuracy))
  }

  /** The simulation modal's parameter object: duration in minutes, scope and accuracy as strings. */
  datatype SimulationParameters = SimulationParameters(duration: int, scope: string, accuracy: string)

  datatype SimulationOutcome = SimulationOutcome(
    delayChange: int,
    congestionChange: int,
    throughputChange: int,
    affectedTrains: int,
    estimatedImpact: string)

  datatype SimulationResult = SimulationResult(
    id: string,
    scenario: string,
    parameters: SimulationParameters,
    results: SimulationOutcome,
    confidence: real,
    timestamp: string)

  predicate IsOnTime(t: Train) { t.status == OnTime }

  predicate IsDelayed(t: Train) { t.status == Delayed }

  /** JavaScript's `Math.round`: the nearest integer, halves rounded up. */
  function Round(x: real): (n: int)
    ensures x - 1.0 / 2.0 < n as real <= x + 1.0 / 2.0
  {
    (x + 1.0 / 2.0).Floor
  }

  /**
   * `m` is the mean of `n` values adding up to `sum`, rounded as `Math.round` does: the
   * exact mean lies in [m - 1/2, m + 1/2), stated without dividing.
   */
  predicate IsRoundedMean(m: int, sum: int, n: int)
  {
    (m as real - 0.5) * (n as real) <= sum as real
    && (sum as real) < (m as real + 0.5) * (n as real)
  }

  /** `Math.round(sum / n)` for a positive count `n`. */
  function RoundedMean(sum: int, n: int): (m: int)
    requires n > 0
    ensures IsRoundedMean(m, sum, n)
    ensures sum >= 0 ==> m >= 0
  {
    var k := n as real;
    var x := sum as real / k;
    assert x * k == sum as real;
    var m := Round(x);
    var lo, hi := m as real - 0.5, m as real + 0.5;
    assert lo <= x < hi;
    NonNegativeProduct(x - lo, k);
    assert (x - lo) * k == x * k - lo * k;
    var gap := hi - x;
    PositiveProduct(gap, k);
    assert gap * k == hi * k - x * k;
    assert lo * k <= sum as real;
    assert sum as real < hi * k;
    m
  }

  lemma PositiveProduct(a: real, b: real)
    requires 0.0 < a && 0.0 < b
    ensures 0.0 < a * b
  {
  }

  lemma NonNegativeProduct(a: real, b: real)
    requires 0.0 <= a && 0.0 <= b
    ensures 0.0 <= a * b
  {
  }

  lemma NonPositiveProduct(a: real, b: real)
    requires a <= 0.0 && 0.0 <= b
    ensures a * b <= 0.0
  {
    NonNegativeProduct(-a, b);
    assert a * b == -((-a) * b);
  }

  /** Multiplying by a non-negative factor keeps order. */
  lemma ScaleBelow(a: real, b: real, f: real)
    requires a <= b && 0.0 <= f
    ensures a * f <= b * f
  {
    assert b * f - a * f == (b - a) * f;
  }

  /**
   * `Math.round(part / total * 100)`. A zero total divides by zero and gives no
   * finite number (NaN or Infinity), modelled as `None`.
   */
  function Percent(part: int, total: int): (p: Option<int>)
    ensures p.None? <==> total == 0
    ensures 0 <= part <= total && total > 0 ==> p.Some? && 0 <= p.value <= 100
    ensures part == 0 && total != 0 ==> p == Some(0)
    ensures part == total && total != 0 ==> p == Some(100)
    ensures total > 0 ==> p == Some(RoundedMean(100 * part, total))
  {
    if total == 0 then None
    else
      var x := part as real / total as real;
      RatioBounds(part, total);
      assert x * 100.0 == (100 * part) as real / total as real;
      Some(Round(x * 100.0))
  }

  /** The ratio of a whole number to a non-zero total: in [0, 1] for a part between 0 and a positive total, 1 for the total itself. */
  lemma RatioBounds(part: int, total: int)
    requires total != 0
    ensures 0 <= part <= total ==> 0.0 <= part as real / total as real <= 1.0
    ensures part == 0 ==> part as real / total as real == 0.0
    ensures part == total ==> part as real / total as real == 1.0
  {
    var x := part as real / total as real;
    var t := total as real;
    assert x * t == part as real;
    if 0 <= part <= total && x > 1.0 {
      assert x * t - t == (x - 1.0) * t;
    }
  }
}

=== FILE: utils.dfy ===
/**
 * Display helpers of lib/utils.ts: the delay label, the colour classes for train
 * statuses and recommendation urgencies, the icon per alert type, and the choice
 * of unit when a number is abbreviated.
 */
module Utils {
  import opened Types
  import Text

  const OnTimeLabel := "On time"
  const EarlySuffix := "m early"

  /** `formatDelay(minutes)` for a whole number of minutes: on time, `+Nm` when late, `-Nm early` when early. */
  function FormatDelay(minutes: int): (s: string)
    ensures |s| > 0
    ensures minutes == 0 <==> s == OnTimeLabel
    ensures minutes > 0 <==> s[0] == '+'
    ensures minutes < 0 <==> s[0] == '-'
    ensures minutes > 0 ==> s == "+" + Text.IntToString(minutes) + "m"
    ensures minutes < 0 ==> s == Text.IntToString(minutes) + EarlySuffix
    ensures minutes < 0 ==> |s| > |EarlySuffix| && s[|s| - |EarlySuffix|..] == EarlySuffix
  {
    if minutes == 0 then OnTimeLabel
    else if minutes > 0 then
      var late := "+" + Text.IntToString(minutes) + "m";
      assert late[0] == '+' != OnTimeLabel[0];
      late
    else
      var digits := Text.IntToString(minutes);
      var early := digits + EarlySuffix;
      assert early[0] == '-' != OnTimeLabel[0];
      assert early[|digits|..] == EarlySuffix;
      early
  }

  /** Distinct delays get distinct labels, so the label always tells the delay back. */
  lemma FormatDelayInjective(a: int, b: int)
    requires FormatDelay(a) == FormatDelay(b)
    ensures a == b
  {
    var s := FormatDelay(a);
    if a > 0 {
      assert Text.IntToString(a) == s[1..|s| - 1] == Text.IntToString(b);
      Text.IntToStringInjective(a, b);
    } else if a < 0 {
      var n := |s| - |EarlySuffix|;
      assert Text.IntToString(a) == s[..n] == Text.IntToString(b);
      Text.IntToStringInjective(a, b);
    }
  }

  const DefaultTextColor := "text-gray-400"
  const DefaultBgColor := "bg-gray-400"

  /** `getStatusColor`: a text colour per train status, gray for anything else. */
  function StatusColor(status: string): (c: string)
    ensures c == DefaultTextColor <==> status != "on-time" && status != "delayed" && status != "emergency" && status != "maintenance"
  {
    if status == "on-time" then "text-status-green"
    else if status == "delayed" then "text-status-orange"
    else if status == "emergency" then "text-status-red"
    else if status == "maintenance" then "text-yellow-500"
    else DefaultTextColor
  }

  /** `getStatusBgColor`: a background colour per train status, gray for anything else. */
  function StatusBgColor(status: string): (c: string)
    ensures c == DefaultBgColor <==> status != "on-time" && status != "delayed" && status != "emergency" && status != "maintenance"
  {
    if status == "on-time" then "bg-status-green"
    else if status == "delayed" then "bg-status-orange"
    else if status == "emergency" then "bg-status-red"
    else if status == "maintenance" then "bg-yellow-500"
    else DefaultBgColor
  }

  /** The four train statuses get four different colours in each table, none of them the default. */
  lemma StatusColorsDistinct(a: TrainStatus, b: TrainStatus)
    ensures StatusColor(TrainStatusName(a)) != DefaultTextColor
    ensures StatusBgColor(TrainStatusName(a)) != DefaultBgColor
    ensures a != b ==> StatusColor(TrainStatusName(a)) != StatusColor(TrainStatusName(b))
    ensures a != b ==> StatusBgColor(TrainStatusName(a)) != StatusBgColor(TrainStatusName(b))
  {
  }

  /** `getUrgencyColor`: a text colour per urgency level, gray for anything else. */
  function UrgencyColor(urgency: string): (c: string)
    ensures c == DefaultTextColor <==> urgency != "low" && urgency != "medium" && urgency != "high" && urgency != "critical"
  {
    if urgency == "low" then "text-blue-400"
    else if urgency == "medium" then "text-yellow-400"
    else if urgency == "high" then "text-orange-400"
    else if urgency == "critical" then "text-red-400"
    else DefaultTextColor
  }

  /** The four urgency levels get four different colours, none of them the default. */
  lemma UrgencyColorsDistinct(a: Urgency, b: Urgency)
    ensures UrgencyColor(UrgencyName(a)) != DefaultTextColor
    ensures a != b ==> UrgencyColor(UrgencyName(a)) != UrgencyColor(UrgencyName(b))
  {
  }

  const WeatherIcon := "\U{1F327}\U{FE0F}"
  const MaintenanceIcon := "\U{1F527}"
  const EmergencyIcon := "\U{1F6A8}"
  const CongestionIcon := "\U{26A0}\U{FE0F}"
  const SystemIcon := "\U{1F4BB}"
  const DefaultIcon := "\U{2139}\U{FE0F}"

  /** `getAlertIcon`: an icon per alert type, the information sign for anything else. */
  function AlertIcon(kind: string): (icon: string)
    ensures icon == DefaultIcon <==>
              kind != "weather" && kind != "maintenance" && kind != "emergency" && kind != "congestion" && kind != "system"
  {
    if kind == "weather" then WeatherIcon
    else if kind == "maintenance" then MaintenanceIcon
    else if kind == "emergency" then EmergencyIcon
    else if kind == "congestion" then CongestionIcon
    else if kind == "system" then SystemIcon
    else DefaultIcon
  }

  /** The five alert types get five different icons, none of them the default. */
  lemma AlertIconsDistinct(a: AlertType, b: AlertType)
    ensures AlertIcon(AlertTypeName(a)) != DefaultIcon
    ensures a != b ==> AlertIcon(AlertTypeName(a)) != AlertIcon(AlertTypeName(b))
  {
  }

  /** The unit `formatNumber` chooses, with the value scaled to it (the one-decimal rendering is not modelled). */
  datatype Abbreviated = Millions(scaled: real) | Thousands(scaled: real) | Plain(value: real)

  /** `formatNumber`: millions from one million up, thousands from one thousand, the number itself below. */
  function FormatNumber(value: real): (f: Abbreviated)
    ensures f.Millions? <==> value >= 1000000.0
    ensures f.Thousands? <==> 1000.0 <= value < 1000000.0
    ensures f.Plain? <==> value < 1000.0
    ensures f.Millions? ==> f.scaled * 1000000.0 == value && f.scaled >= 1.0
    ensures f.Thousands? ==> f.scaled * 1000.0 == value && 1.0 <= f.scaled < 1000.0
    ensures f.Plain? ==> f.value == value
  {
    if value >= 1000000.0 then Millions(value / 1000000.0)
    else if value >= 1000.0 then Thousands(value / 1000.0)
    else Plain(value)
  }
}
